=== FILE: README.md ===
# Crestron XSIG integration for Home Assistant: a Dafny model

This project models the core of the `crestron` custom component for Home Assistant.

**The XSIG server (`CrestronXsig`).** The control system connects to this TCP server. It exchanges XSIG frames in both directions:
- digital joins are 2-byte frames;
- analog joins are 4-byte frames;
- serial joins are frames carrying a string;
- the single byte 0xFB asks Home Assistant to resend every join it owns;
- the single byte 0xFD asks the control system for every value.

Inbound frames fill three join stores and notify every registered callback with a key such as `d12`, `a3` or `s7` and a string value. The `set_*` methods pack outbound frames onto the current connection.

**The hub (`CrestronHub`, `__init__.py`).** It maps Home Assistant template results to `set_*` calls:
- `template_change_callback` does this when a template changes;
- `sync_joins_to_hub` does it for every join on request.

`join_change_callback` turns notified joins into service calls or script runs. The `set_serial` service passes its value through `str()`.

**The light (`light.py`).** It reads its brightness from an analog join, scaled by 257. It writes the brightness back the same way.

## Modules
- `python.dfy` (`PyBuiltins`) holds Python's `str()` and `int()`, and the values a template result can take.
- `codec.dfy` (`Codec`) holds the frame bit arithmetic of `set_*` and of the decoder. It uses Python's `>>` and `&` on unbounded ints. `struct.pack` raises unless a header byte lies in 0..255.
- `stream.dfy` (`Stream`):
  - `NextStep` is one pass of the read loop, as a pure function of the byte stream and a position.
  - `Frames` is the event sequence a whole stream yields.
- `xsig.dfy` (`Xsig`) holds the `CrestronXsig` class:
  - its fields are the join stores, the callbacks, availability and the current writer;
  - `outbox` records every `writer.write`, `calls` every round of callback invocations, and `closedWriters` the writers closed at session end.
  - The bytes the peer sends are a parameter.
  - Which callback awaits raise is also a parameter: a set of (round, callback) pairs, plus the rounds in which the sync handler raises something other than `ValueError`. Every method that runs rounds states that each of its rounds ends as these sets dictate (`Honest`): a fan-out stops at the first callback in the set and raises iff it reached one.
  - Python's set iteration order is arbitrary. The model picks callbacks in an unspecified order, so every property holds for every order.
- `hub.dfy` (`Hub`) holds the key dispatch, its three loops and the serial service, as a `CrestronHub` class over a `CrestronXsig`.
- `light.py` is modelled in `light.dfy` (`Light`), as the `CrestronLight` class.

## Where the code and its documented design differ

Where the component's documented design and its code differ, this model follows the code:
- Digital notifications carry `"1"`/`"0"` (`str` of an int), not `"True"`/`"False"`.
- `set_*` never touch the join stores; only inbound frames do.
- Outbound serial frames end in 0xFF. Inbound serial frames carry a length byte instead. So there is no serial round trip through the code itself.
- The writer is replaced on every connection and never cleared, so `set_*` after a disconnect still write to the old writer. No connection is refused and none replaces another.
- A raising callback is not isolated per callback. It ends the session, and the `finally` block still runs.
- A serial payload cut short by the end of the stream is stored and notified as received (`Stream.SerialCutShort`).
- The 252 limit of `set_serial` counts characters, not encoded bytes.
- `set_digital` packs any join in 1..32768, but only 1..4096 survive the 12-bit decoder (`Codec.DigitalJoinAliasing`). `set_analog` packs any join in 1..32768, but the 10-bit decoder never reads back a join above 1024 (`Codec.AnalogJoinOverflow`). The join bits above bit 9 spill into the first byte. When bit 3 of `(join-1) >> 7` is set (for example joins 1025..2048), the frame carries a serial header. Otherwise the frame still reads as analog, but as join `(join-1) % 1024 + 1`, and join bits 11-12 are OR-ed into value bits 14-15. So `set_analog(2049, 0)` reads as join 1 with level 16384 (`Codec.AnalogJoin2049`).

## Model

| member | source | states |
|---|---|---|
| PyBuiltins.IntToStrRoundTrip | custom_components/crestron/crestron.py:117 | `int(str(i)) == i` for every int, so a notified analog value or join number parses back exactly |
| PyBuiltins.IntToStrInjective | custom_components/crestron/crestron.py:102 | distinct join numbers give distinct decimal strings |
| PyBuiltins.Str | custom_components/crestron/__init__.py:194 | `str()`: a string is itself, a bool is `"True"`/`"False"`, None is `"None"`, and an int's string parses back to it |
| PyBuiltins.ToInt | custom_components/crestron/__init__.py:283 | `int()`: None fails (TypeError), a bool is 1 or 0, an int is itself |
| Codec.Utf8 | custom_components/crestron/crestron.py:199 | `str.encode()` gives between 1 and 4 bytes per character, and exactly one for ASCII |
| Codec.AsciiDecode | custom_components/crestron/crestron.py:128 | `bytes.decode("ascii")` fails iff some byte is 0x80 or above; otherwise each character has its byte's code |
| Codec.Utf8OfAscii | custom_components/crestron/crestron.py:199 | an ASCII string encodes to its character codes |
| Codec.AsciiRoundTrip | custom_components/crestron/crestron.py:128 | decoding the encoding of an ASCII string gives the string back |
| Codec.DigitalRoundTrip | custom_components/crestron/crestron.py:177-188 | for join 1..4096, `set_digital` packs 2 bytes: a digital header, bit 5 of byte 0 set iff the value is False, and the decoder's join and value arithmetic (lines 96-99) gives back (join, value) |
| Codec.AnalogRoundTrip | custom_components/crestron/crestron.py:162-171 | for join 1..1024 and value 0..65535, the 4 packed bytes form an analog header and decode (lines 109-113) to the same join and value; value bits 14-15 travel in bits 4-5 of byte 0, and bytes 2-3 carry seven bits each with bit 7 clear |
| Codec.AnalogWraps | custom_components/crestron/crestron.py:165-170 | any int value packs, and decodes to the value modulo 65536 |
| Codec.PackErrorIff | custom_components/crestron/crestron.py:165-198 | each `set_*` frame raises `struct.error` exactly when the join is outside 1..32768 |
| Codec.DigitalJoinAliasing | custom_components/crestron/crestron.py:182 | `set_digital(4097, True)` packs and is read back as join 1, off |
| Codec.AnalogJoinOverflow | custom_components/crestron/crestron.py:164-171 | for every join in 1025..32768 the frame packs, and the header reads as serial iff bit 3 of `(join-1) >> 7` is set, as analog otherwise. Join bits 11-12 are OR-ed into value bits 14-15. The join field (lines 104-110) reads `(join-1) % 1024 + 1`, never the join sent |
| Codec.AnalogJoin1025 | custom_components/crestron/crestron.py:164-171 | `set_analog(1025, 0)` packs [0xC8, 0, 0, 0], which the decoder classifies as serial, not analog |
| Codec.AnalogJoin2049 | custom_components/crestron/crestron.py:164-171 | `set_analog(2049, 0)` packs [0xD0, 0, 0, 0], which the decoder (lines 104-113) reads as an analog frame for join 1 with level 16384 |
| Codec.HeaderClassesExclusive | custom_components/crestron/crestron.py:92-122 | no byte pair is in two of the digital/analog/serial classes; 0xFB would classify as serial, so testing it first matters |
| Codec.DecodedRanges | custom_components/crestron/crestron.py:97-113 | decoded digital joins lie in 1..4096, analog and serial joins in 1..1024, analog values in 0..65535 |
| Codec.SerialFrameLayout | custom_components/crestron/crestron.py:196-200 | `set_serial`'s frame for join 1..1024 is a serial header carrying the join, then the encoded string, then 0xFF |
| Stream.Read | custom_components/crestron/crestron.py:89 | `reader.read(n)` returns the next n bytes, fewer only at the end of the stream |
| Stream.NextStep | custom_components/crestron/crestron.py:73-135 | one pass of the loop: the peer has closed exactly at the end of input, and a decoded or skipped frame consumes at least one byte and stays within the input |
| Stream.Frames | custom_components/crestron/crestron.py:73-135 | the read loop run to its end. With `FramesBounded`, `WireDecodes`, `SerialCutShort` and `UnmatchedPairSkipped` it yields: never more events than bytes; exactly the events of well-formed frames, in order; a truncated serial payload as the last event; nothing for a pair that matches no frame class |
| Stream.FramesBounded | custom_components/crestron/crestron.py:73-135 | every pass of the loop consumes at least one byte, so there are never more events than bytes left |
| Stream.DigitalFrameStep | custom_components/crestron/crestron.py:92-99 | the frame `set_digital` builds is read back as the same join and value, consuming 2 bytes |
| Stream.AnalogFrameStep | custom_components/crestron/crestron.py:104-114 | the frame `set_analog` builds is read back as the same join and level, consuming 4 bytes |
| Stream.SerialFrameStep | custom_components/crestron/crestron.py:119-129 | a length-prefixed ASCII serial frame is read back as the same join and text, consuming exactly its bytes |
| Stream.SyncByteStep | custom_components/crestron/crestron.py:78 | 0xFB is a sync request and consumes one byte |
| Stream.DecodedEventSendable | custom_components/crestron/crestron.py:96-129 | whatever the bytes, a decoded event's join and level lie within its frame's ranges |
| Stream.UnmatchedPairSkipped | custom_components/crestron/crestron.py:88-122 | a pass consumes two bytes and yields nothing exactly when the pair is not 0xFB and matches no frame class |
| Stream.LoneHeaderByteFaults | custom_components/crestron/crestron.py:92-96 | a digital, analog or serial lead byte with no second byte ends the session with an error |
| Stream.ShortAnalogFaults | custom_components/crestron/crestron.py:108-109 | an analog frame cut short after its header fails to unpack and ends the session |
| Stream.AnalogStep | custom_components/crestron/crestron.py:104-113 | any analog header with two more bytes decodes as one analog event for the header's join and the 16-bit value, consuming four bytes |
| Stream.NonAsciiSerialFaults | custom_components/crestron/crestron.py:119-128 | a serial payload holding a byte of 0x80 or above makes `decode("ascii")` raise, which ends the session |
| Stream.SerialCutStep | custom_components/crestron/crestron.py:123-129 | a serial frame cut after k payload bytes still decodes, carrying the first k characters |
| Stream.SerialCutShort | custom_components/crestron/crestron.py:126-129 | the truncated payload is the stream's one event, and the session then ends as closed |
| Stream.WireDecodes | custom_components/crestron/crestron.py:73-135 | a stream of well-formed frames yields exactly their events, in order, and ends when the peer closes |
| Xsig.StoreHoldsLatest | custom_components/crestron/crestron.py:99 | after any sequence of frames, each join holds the value of its latest frame; a join no frame mentions keeps its earlier entry or absence |
| Xsig.ApplyKeepsValid | custom_components/crestron/crestron.py:114 | storing a decodable event keeps every join and value in its frame's range |
| Xsig.Notice | custom_components/crestron/crestron.py:101-132 | a data frame notifies a key of a type letter followed by the join number |
| Xsig.NoticeKeyIdentifiesJoin | custom_components/crestron/crestron.py:102 | two frames notify under the same key iff they are of the same type for the same join |
| Xsig.TransmitShape | custom_components/crestron/crestron.py:162-204 | a `set_*` call writes at most one frame, only to the current writer. Without a writer, or with a serial string over 252 characters, it does nothing. With a writer it raises iff the join is outside 1..32768 |
| Xsig.TransmitReadsBack | custom_components/crestron/crestron.py:162-188 | a digital or analog write within the decoder's ranges is read back by the server's own parser as the same join and value |
| Xsig.CrestronXsig.constructor | custom_components/crestron/crestron.py:9-19 | empty stores, no writer, no callbacks, not available, no sync handler |
| Xsig.CrestronXsig.RegisterSyncAllJoinsCallback | custom_components/crestron/crestron.py:47-50 | the handler replaces any earlier one |
| Xsig.CrestronXsig.RegisterCallback | custom_components/crestron/crestron.py:52-54 | set semantics: adding a registered callback changes nothing |
| Xsig.CrestronXsig.RemoveCallback | custom_components/crestron/crestron.py:56-58 | set semantics: removing an absent callback changes nothing |
| Xsig.CrestronXsig.IsAvailable | custom_components/crestron/crestron.py:146-148 | returns the availability flag |
| Xsig.CrestronXsig.GetAnalog | custom_components/crestron/crestron.py:150-152 | never fails: the stored value, or 0 for an unset join; always in 0..65535 |
| Xsig.CrestronXsig.GetDigital | custom_components/crestron/crestron.py:154-156 | never fails: the stored value, or False for an unset join |
| Xsig.CrestronXsig.GetSerial | custom_components/crestron/crestron.py:158-160 | never fails: the stored string, or "" for an unset join; always ASCII and under 256 characters |
| Xsig.CrestronXsig.SetDigital | custom_components/crestron/crestron.py:177-188 | appends exactly the writes of `Transmit`, raises exactly as it says, and touches nothing else (no store) |
| Xsig.CrestronXsig.SetAnalog | custom_components/crestron/crestron.py:162-175 | as `SetDigital`, for the analog frame |
| Xsig.CrestronXsig.SetSerial | custom_components/crestron/crestron.py:190-204 | as `SetDigital`, for the serial frame; a string over 252 characters writes nothing |
| Xsig.CrestronXsig.Send | custom_components/crestron/crestron.py:162-204 | whichever `set_*` the write names |
| Xsig.CrestronXsig.Broadcast | custom_components/crestron/crestron.py:101-102 | one round: callbacks are awaited one at a time, each registered one at most once. Every one is reached unless one raises. The round stops at the first that raises, and it fails iff one reached raised |
| Xsig.CrestronXsig.Stop | custom_components/crestron/crestron.py:34-45 | availability drops and "available" "False" goes to the callbacks. The round stops at the first callback in `faults` and raises iff one was reached. The server is closed only if none raised |
| Xsig.CrestronXsig.Notify | custom_components/crestron/crestron.py:131-132 | a notification is one round, with the notified signal. The round stops at the first callback in `faults` and fails iff one was reached |
| Xsig.CrestronXsig.RequestSync | custom_components/crestron/crestron.py:78-87 | the handler is called once if registered. The call raises iff its round is in `sync`; a `ValueError` counts as success |
| Xsig.CrestronXsig.Receive | custom_components/crestron/crestron.py:91-132 | the store takes the frame's value; at most one round with the frame's signal. The round ends as `faults` and `sync` dictate, and the frame fails iff that round raised |
| Xsig.CrestronXsig.Take | custom_components/crestron/crestron.py:91-132 | one decoded frame extends the session: store, call log and signals all advance by that frame, and every round of the session still ends as `faults` and `sync` dictate |
| Xsig.CrestronXsig.Serve | custom_components/crestron/crestron.py:72-135 | the frames taken are a prefix of the stream's events, all of them unless a callback raised. The store is their effect in order, with one signal per frame. Only the last round may have raised, and it did iff the loop was interrupted. It ends as closed iff nothing raised and the stream ended cleanly. Every round ends as `faults` and `sync` dictate |
| Xsig.CrestronXsig.Open | custom_components/crestron/crestron.py:62-71 | the new writer replaces the old one; availability is set and announced. The announcement raises iff a callback in `faults` was reached, and 0xFD is written only if it did not raise |
| Xsig.CrestronXsig.Close | custom_components/crestron/crestron.py:138-144 | the writer is closed, availability drops, and "available" "False" is announced; the announcement ends as `faults` dictate |
| Xsig.CrestronXsig.HandleConnection | custom_components/crestron/crestron.py:60-144 | a whole connection, in this order: "available" "True", then 0xFD only after a clean announcement, then one signal per frame taken, then "available" "False" on every path. The store holds the effect of the frames taken; only the last round before closing may have raised. Every round ends as `faults` and `sync` dictate. Without faults, every frame of the stream is served and the only write is 0xFD |
| Xsig.CrestronXsig.ServeConnection | custom_components/crestron/crestron.py:62-135 | the try block: writer installed and availability announced, then 0xFD and the frames only after a clean announcement; the store holds the effect of the frames taken, and every round ends as `faults` and `sync` dictate |
| Xsig.Bracketed | custom_components/crestron/crestron.py:66-144 | the opening, session and closing rounds together keep the call-log invariants |
| Xsig.HonestFromIff | custom_components/crestron/crestron.py:66-144 | the recursive statement that every round from a position on ends as the faults dictate is equivalent to the same statement about each round |
| Xsig.NoFaultsNoRaise | custom_components/crestron/crestron.py:80-102 | with no raising callback and no raising handler, no round of the call log raises |
| Xsig.ConnectionHonest | custom_components/crestron/crestron.py:60-144 | the opening, session and closing rounds together end as the faults dictate; without faults neither the opening announcement nor any session round raised |
| Hub.DigitalCoercionIff | custom_components/crestron/__init__.py:267-277 | on iff "on", "True" or True; off iff "off", "False" or False; no call for anything else |
| Hub.DispatchCases | custom_components/crestron/__init__.py:265-289 | the prefix alone selects the call. `d` sets the coerced bool, `a` sets `int(result)`, `s` sets `str(result)`, always at join `int(key[1:])`. It raises iff a needed `int()` fails; any other prefix makes no call |
| Hub.NoticeKeyDispatches | custom_components/crestron/__init__.py:277 | the key a notification carries reads back to its join type and join number |
| Hub.EchoDispatch | custom_components/crestron/__init__.py:267-283 | echoing a notified digital state, or analog level string, under its own key asks for the same write |
| Hub.EntriesRaiseFinal | custom_components/crestron/__init__.py:262-289 | once an entry raises, the later entries of that update send nothing |
| Hub.TemplateRaiseFinal | custom_components/crestron/__init__.py:257-289 | once an update raises, the later updates send nothing |
| Hub.UnusedTemplateQuiet | custom_components/crestron/__init__.py:262-263 | an update whose template no entry uses sends nothing and cannot raise |
| Hub.TemplateRunOffline | custom_components/crestron/__init__.py:257-289 | with no connection, template changes send nothing |
| Hub.EntriesRunOffline | custom_components/crestron/__init__.py:262-289 | with no connection, one update's entries send nothing |
| Hub.JoinSync | custom_components/crestron/__init__.py:294-328 | None, "unknown" and a failed render send nothing; an entry sends at most one frame |
| Hub.SyncRunSplit | custom_components/crestron/__init__.py:293-328 | the writes for two stretches of `to_hub` are those of each: no entry's failure stops a later one |
| Hub.SyncReachesEntry | custom_components/crestron/__init__.py:326-328 | each entry's frame is sent between those of the entries before and after it, whatever they did |
| Hub.SplitDot | custom_components/crestron/__init__.py:241 | `str.split(".")` always gives at least one piece |
| Hub.SplitDotJoin | custom_components/crestron/__init__.py:241 | there is one piece more than there are dots; no piece contains a dot; joining the pieces with dots gives the name back |
| Hub.ServiceSplit | custom_components/crestron/__init__.py:241 | a service name unpacks into (domain, service) iff it has exactly one dot, and is `domain + "." + service` |
| Hub.JoinChangeQuiet | custom_components/crestron/__init__.py:231-234 | a key no entry watches, or a digital key going to "0", causes nothing |
| Hub.JoinChangeActionsWatched | custom_components/crestron/__init__.py:230-246 | every action taken is exactly what some entry watching the notified key asks for |
| Hub.JoinChangeRaiseFinal | custom_components/crestron/__init__.py:241 | once an entry raises (a service name that does not split into exactly two parts), the later entries take no action |
| Hub.CrestronHub.constructor | custom_components/crestron/__init__.py:114-126 | the hub keeps its server and its to_hub and from_hub entries, and has run no service or script yet |
| Hub.CrestronHub.TemplateChangeCallback | custom_components/crestron/__init__.py:254-289 | appends exactly the writes of `TemplateRun` and raises exactly when it does |
| Hub.CrestronHub.Update | custom_components/crestron/__init__.py:258-289 | one update: nothing for a "None" result, otherwise the matching entries in order until one raises |
| Hub.CrestronHub.Forward | custom_components/crestron/__init__.py:265-289 | one dispatch and the `set_*` call it selects |
| Hub.CrestronHub.SyncJoinsToHub | custom_components/crestron/__init__.py:291-332 | appends exactly the writes of `SyncRun`, and never raises |
| Hub.CrestronHub.SyncEntry | custom_components/crestron/__init__.py:295-327 | one entry: a failed render, None or "unknown" sends nothing; any other value sends what its dispatch sends, with every exception swallowed |
| Hub.CrestronHub.JoinChangeCallback | custom_components/crestron/__init__.py:228-246 | appends exactly the actions of `JoinChangeRun` and raises exactly when it does |
| Hub.CrestronHub.SetSerialService | custom_components/crestron/__init__.py:190-194 | always calls `set_serial` with `str(value)` |
| Light.BrightnessOf | custom_components/crestron/light.py:62 | `int(level / 257)`: for a non-negative level, the largest b with b·257 ≤ level; truncated toward zero for negatives |
| Light.BrightnessRange | custom_components/crestron/light.py:62 | a level in 0..65535 gives a brightness in 0..255 |
| Light.IsOnIff | custom_components/crestron/light.py:66 | the brightness is nonzero iff the level is at least 257 away from zero |
| Light.TurnOnLevel | custom_components/crestron/light.py:72-76 | the level sent reads back as the requested (or default) brightness; the default 128 gives 32896 |
| Light.TurnOnReadsBack | custom_components/crestron/light.py:74 | a brightness 0..255 sent as a level arrives as one analog frame, read back as the same join and level, and so the same brightness |
| Light.OversizedDefaultWraps | custom_components/crestron/light.py:17 | a configured default of 256 or more wraps modulo 65536 on the wire, and the brightness read back is the wrapped level divided by 257; a default of 256 sends level 256, which reads back as brightness 0, that is off |
| Light.CrestronLight.constructor | custom_components/crestron/light.py:30-37 | the configured join, and the configured default brightness or 128 |
| Light.CrestronLight.Available | custom_components/crestron/light.py:48-50 | mirrors the hub's availability |
| Light.CrestronLight.Brightness | custom_components/crestron/light.py:60-62 | 0 for a join never received; otherwise in 0..255 and the floor of level/257 |
| Light.CrestronLight.IsOn | custom_components/crestron/light.py:64-66 | on iff the stored level is at least 257 |
| Light.CrestronLight.TurnOn | custom_components/crestron/light.py:72-76 | one `set_analog` with brightness·257, or default·257 when none is given |
| Light.CrestronLight.TurnOff | custom_components/crestron/light.py:78-79 | one `set_analog` with level 0 |

## Left out
- The asyncio server is not modelled: `listen`, `start_server`, `serve_forever`, `server.close`, `writer.close` and `wait_closed`. Closing appears only as a flag and a set of closed writers.
- If `wait_closed` raises, the closing announcement is skipped. That path is not modelled.
- A reader that delivers a frame in several pieces is not modelled. `read(n)` returns fewer than n bytes only at the end of the stream.
- Logging and `print` calls are left out.
- The callbacks' own code is left out. Whether an awaited callback raises is a parameter, and so is whether the sync handler raises. Callbacks registered or removed while a round iterates over the set are not modelled.
- Xsig.CrestronXsig.HandleConnection: writes made during a session by the sync handler (`sync_joins_to_hub` calls `set_*` on the writer just installed) or by the callbacks (through the services they call) are not recorded in `outbox`. The postcondition that a connection's only write is the 0xFD update request holds for the model, whose handlers cannot write; in the program, the update request is the session's first write, and others may follow. Open, ServeConnection and Serve share this limit.
- Xsig.CrestronXsig.Broadcast: the order in which a Python set yields callbacks is left unspecified rather than modelled.
- Python's `int()` of a string is modelled as an optional sign followed by decimal digits. It also accepts surrounding whitespace, underscores between digits, and any Unicode decimal digit (such as full-width digits). Those forms are not modelled; the model rejects them.
- Template results are strings, bools, ints or None. Floats and other objects are not modelled.
- The Home Assistant plumbing is left out: configuration schemas, platform loading, template rendering and tracking, service registration, `Context`, and `CrestronHub.start`/`stop`. A rendered result enters as a parameter; a service or script appears as an identity.
- The `set_digital` and `set_analog` services are not modelled; they pass their arguments straight to `set_digital` and `set_analog`.
- Hub.CrestronHub.constructor: registering `sync_joins_to_hub` as the sync-all-joins handler (`__init__.py`, line 130) and `join_change_callback` as a callback (line 162) is not modelled. In the server model the handler and the callback are identities; their effects are modelled by `SyncJoinsToHub` and `JoinChangeCallback`, called directly.
- Hub.CrestronHub.JoinChangeCallback: a service call or script run is recorded and is assumed not to raise. Only the `split(".")` unpacking error is modelled.
- Light.CrestronLight.TurnOn: the brightness argument is an int. Python's float product `brightness * 257` followed by `int()` is not modelled.
- Light.BrightnessOf: the division is done on exact integers. For the levels the server can store, Python's float division gives the same result; for very large ints the two can differ.
- The light's entity machinery (`slugify`, `async_write_ha_state`, callback registration) is not modelled.
- `test_crestron_client.py` is a network test client and is not part of this model.

=== FILE: codec.dfy ===
/** The XSIG frame codec: the bytes CrestronXsig.set_digital, set_analog and
    set_serial pack (crestron.py:162-204) and the arithmetic handle_connection
    applies to the header bytes it reads (crestron.py:92-132).

    Join numbers and values are Python ints, so they are `int` here and the
    operators are written with Python's meaning: `x >> k` is `x / 2^k` (Dafny's
    division by a positive number floors, as Python's shift does), and `x & m`
    for a mask below 256 is `LowByte(x) & m`, the mask applied to the low eight
    bits of x in two's complement. A byte written by struct.pack with format
    "B" must lie in 0..255, otherwise struct.pack raises struct.error. */
module Codec {
  import opened PyBuiltins

  type byte = bv8

  /** Written once on every new connection: "send me every join value". */
  const UpdateRequest: byte := 0xFD
  /** Read from the control system: "resend every join you own". */
  const SyncAllRequest: byte := 0xFB
  /** Closes an outbound serial frame. */
  const SerialTerminator: byte := 0xFF
  /** set_serial refuses strings with more characters than this. */
  const MaxSerialLength := 252

  /** Outcome of struct.pack: the packed bytes, or struct.error. */
  datatype Packed = Packed(bytes: seq<byte>) | PackError

  /** The byte whose value is x, that is `x as byte`. It is defined by
      recursion rather than by the cast so that every fact about it is stated
      on integers (`b as int == x`), which keeps the proofs about the frame
      bytes in linear integer arithmetic. */
  function ByteOf(x: int): (b: byte)
    requires 0 <= x < 256
    ensures b as int == x
  {
    if x == 0 then 0 else ByteOf(x - 1) + 1
  }

  /** The low eight bits of a Python int (two's complement for negatives). */
  function LowByte(x: int): byte
  {
    ByteOf(x % 256)
  }

  /** Python's `~v` on a bool, which Python treats as the int 0 or 1. */
  function Invert(v: bool): int
  {
    -(if v then 1 else 0) - 1
  }

  /** struct.pack("B", base | (join-1) >> 7) succeeds exactly when
      (join-1) >> 7 lies in 0..255: OR-ing a byte with a negative int stays
      negative, and with an int of 256 or more stays at least 256. */
  predicate JoinPacks(join: int)
  {
    0 <= (join - 1) / 128 < 256
  }

  /** (join-1) >> 7, the unmasked top bits OR-ed into the first byte. */
  function JoinHigh(join: int): byte
    requires JoinPacks(join)
  {
    ByteOf((join - 1) / 128)
  }

  /** (join-1) & 0x7F, the second byte of every outbound frame. */
  function JoinLow(join: int): byte
  {
    LowByte(join - 1) & 0x7F
  }

  // ---------------------------------------------------------------- encoders

  /** set_digital's frame: 10, the inverted value, (join-1) >> 7; then
      (join-1) & 0x7F. */
  function EncodeDigital(join: int, value: bool): Packed
  {
    if !JoinPacks(join) then PackError
    else Packed([0x80 | (LowByte(Invert(value) * 32) & 0x20) | JoinHigh(join), JoinLow(join)])
  }

  /** set_analog's frame: 1100, value >> 10 & 0x30, (join-1) >> 7; then
      (join-1) & 0x7F, value >> 7 & 0x7F and value & 0x7F. */
  function EncodeAnalog(join: int, value: int): Packed
  {
    if !JoinPacks(join) then PackError
    else Packed([0xC0 | (LowByte(value / 1024) & 0x30) | JoinHigh(join), JoinLow(join),
                 LowByte(value / 128) & 0x7F, LowByte(value) & 0x7F])
  }

  /** UTF-8 encoding of one character, as Python's str.encode() produces it. */
  function Utf8Char(c: char): (r: seq<byte>)
    ensures 1 <= |r| <= 4
    ensures (c as int < 0x80) <==> |r| == 1
  {
    var n := c as int;
    if n < 0x80 then [ByteOf(n)]
    else if n < 0x800 then [ByteOf(0xC0 + n / 64), ByteOf(0x80 + n % 64)]
    else if n < 0x10000 then
      [ByteOf(0xE0 + n / 4096), ByteOf(0x80 + n / 64 % 64), ByteOf(0x80 + n % 64)]
    else
      [ByteOf(0xF0 + n / 262144), ByteOf(0x80 + n / 4096 % 64),
       ByteOf(0x80 + n / 64 % 64), ByteOf(0x80 + n % 64)]
  }

  /** str.encode(): one to four bytes per character, one exactly for ASCII. */
  function Utf8(s: string): (r: seq<byte>)
    ensures |s| <= |r| <= 4 * |s|
    ensures IsAscii(s) ==> |r| == |s|
  {
    if s == [] then [] else Utf8Char(s[0]) + Utf8(s[1..])
  }

  predicate IsAscii(s: string)
  {
    forall i :: 0 <= i < |s| ==> s[i] as int < 0x80
  }

  /** bytes.decode("ascii"): every byte below 0x80 becomes the character with
      that code; any other byte is the UnicodeDecodeError case, None. */
  function AsciiDecode(bytes: seq<byte>): (r: Option<string>)
    ensures r.None? <==> exists i :: 0 <= i < |bytes| && bytes[i] >= 0x80
    ensures r.Some? ==> |r.value| == |bytes| && IsAscii(r.value)
    ensures r.Some? ==> forall i :: 0 <= i < |bytes| ==> r.value[i] as int == bytes[i] as int
  {
    if forall i :: 0 <= i < |bytes| ==> bytes[i] < 0x80 then
      Some(seq(|bytes|, i requires 0 <= i < |bytes| => bytes[i] as int as char))
    else
      None
  }

  /** set_serial's frame (length check aside): 11001 and the top bits of
      join-1; the low seven bits of join-1; the encoded string; 0xFF. */
  function EncodeSerial(join: int, s: string): Packed
  {
    if !JoinPacks(join) then PackError
    else Packed([0xC8 | JoinHigh(join), JoinLow(join)] + Utf8(s) + [SerialTerminator])
  }

  // ----------------------------------------------------- header classification

  /** The first halves of handle_connection's three header tests, which are
      evaluated before the second byte is looked at. */
  predicate DigitalLead(b0: byte) { b0 & 0xC0 == 0x80 }
  predicate AnalogLead(b0: byte) { b0 & 0xC8 == 0xC0 }
  predicate SerialLead(b0: byte) { b0 & 0xC8 == 0xC8 }
  predicate TopBitClear(b1: byte) { b1 & 0x80 == 0 }

  predicate IsDigitalHeader(b0: byte, b1: byte) { DigitalLead(b0) && TopBitClear(b1) }
  predicate IsAnalogHeader(b0: byte, b1: byte) { AnalogLead(b0) && TopBitClear(b1) }
  predicate IsSerialHeader(b0: byte, b1: byte) { SerialLead(b0) && TopBitClear(b1) }

  // ---------------------------------------------------------------- decoders

  /** ((b0 & 0x1F) << 7 | b1) + 1: a 12-bit join field. */
  function DigitalJoin(b0: byte, b1: byte): int
  {
    ((((b0 & 0x1F) as bv16) << 7) | (b1 as bv16)) as int + 1
  }

  /** ~b0 >> 5 & 1, read as a boolean. */
  function DigitalValue(b0: byte): bool
  {
    ((!b0) >> 5) & 1 == 1
  }

  /** ((b0 & 0x07) << 7 | b1) + 1: the 10-bit join field of analog and serial frames. */
  function WideJoin(b0: byte, b1: byte): int
  {
    ((((b0 & 0x07) as bv16) << 7) | (b1 as bv16)) as int + 1
  }

  /** (b0 & 0x30) << 10 | b2 << 7 | b3. */
  function AnalogValue(b0: byte, b2: byte, b3: byte): int
  {
    ((((b0 & 0x30) as bv16) << 10) | ((b2 as bv16) << 7) | (b3 as bv16)) as int
  }


  // ------------------------------------------------------------------ bridges

  /** A byte as the sum of its top bit and its low seven bits. */
  lemma ByteSplitSeven(b: byte)
    ensures b as int == (b >> 7) as int * 128 + (b & 0x7F) as int
    ensures (b & 0x7F) as int < 128
  {
  }

  /** A byte as the sum of bits 6-7, bits 4-5 and bits 0-3. */
  lemma ByteSplitNibble(b: byte)
    ensures b as int == (b >> 6) as int * 64 + ((b >> 4) & 3) as int * 16 + (b & 0x0F) as int
    ensures (b & 0x30) as int == ((b >> 4) & 3) as int * 16
    ensures ((b >> 4) & 3) as int < 4 && (b & 0x0F) as int < 16
  {
  }

  lemma MaskSeven(b: byte)
    ensures (b & 0x7F) as int == b as int % 128
  {
    ByteSplitSeven(b);
    Digits128(b as int, (b >> 7) as int, (b & 0x7F) as int);
  }

  lemma MaskTop(b: byte)
    ensures (b & 0x30) as int / 16 == b as int % 64 / 16
  {
    ByteSplitNibble(b);
    var h, m, l := (b >> 6) as int, ((b >> 4) & 3) as int, (b & 0x0F) as int;
    Digits64(b as int, h, m * 16 + l);
    Digits16(m * 16 + l, m, l);
  }

  /** n == hi * 128 + lo with 0 <= lo < 128: lo is n % 128 and hi is n / 128. */
  lemma Digits128(n: int, hi: int, lo: int)
    requires 0 <= lo < 128 && n == hi * 128 + lo
    ensures n % 128 == lo && n / 128 == hi
  {
  }

  lemma Digits64(n: int, hi: int, lo: int)
    requires 0 <= lo < 64 && n == hi * 64 + lo
    ensures n % 64 == lo && n / 64 == hi
  {
  }

  lemma Digits16(n: int, hi: int, lo: int)
    requires 0 <= lo < 16 && n == hi * 16 + lo
    ensures n % 16 == lo && n / 16 == hi
  {
  }

  /** The low seven bits of a Python int, as Python's `x & 0x7F` gives them. */
  lemma LowSevenBits(x: int)
    ensures (LowByte(x) & 0x7F) as int == x % 128
    ensures TopBitClear(LowByte(x) & 0x7F)
  {
    var r := x % 256;
    MaskSeven(LowByte(x));
    Digits128(r, r / 128, r % 128);
    Digits128(x, 2 * (x / 256) + r / 128, r % 128);
  }

  lemma ShiftOr7(hi: bv16, lo: bv16)
    requires hi < 512 && lo < 128
    ensures ((hi << 7) | lo) as int == hi as int * 128 + lo as int
  {
    assert (hi << 7) | lo == hi * 128 + lo;
  }

  lemma DigitalJoinArith(b0: byte, b1: byte)
    requires TopBitClear(b1)
    ensures DigitalJoin(b0, b1) == (b0 & 0x1F) as int * 128 + b1 as int + 1
  {
    ShiftOr7((b0 & 0x1F) as bv16, b1 as bv16);
  }

  lemma WideJoinArith(b0: byte, b1: byte)
    requires TopBitClear(b1)
    ensures WideJoin(b0, b1) == (b0 & 0x07) as int * 128 + b1 as int + 1
  {
    ShiftOr7((b0 & 0x07) as bv16, b1 as bv16);
  }

  lemma BitsToSum(t: bv16, m: bv16, l: bv16)
    requires t < 4 && m < 128 && l < 128
    ensures (t * 16384 + m * 128 + l) as int == t as int * 16384 + m as int * 128 + l as int
  {
  }

  lemma AnalogBitsShape(b0: byte, b2: byte, b3: byte)
    requires TopBitClear(b2) && TopBitClear(b3)
    ensures ((((b0 & 0x30) as bv16) << 10) | ((b2 as bv16) << 7) | (b3 as bv16))
         == (((b0 & 0x30) as bv16) >> 4) * 16384 + (b2 as bv16) * 128 + (b3 as bv16)
  {
  }

  lemma TopBits(b0: byte)
    ensures (((b0 & 0x30) as bv16) >> 4) as int == (b0 & 0x30) as int / 16
  {
  }

  lemma AnalogValueArith(b0: byte, b2: byte, b3: byte)
    requires TopBitClear(b2) && TopBitClear(b3)
    ensures AnalogValue(b0, b2, b3) == (b0 & 0x30) as int / 16 * 16384 + b2 as int * 128 + b3 as int
  {
    AnalogBitsShape(b0, b2, b3);
    TopBits(b0);
    BitsToSum(((b0 & 0x30) as bv16) >> 4, b2 as bv16, b3 as bv16);
  }

  lemma ModSplit(v: int)
    ensures v % 65536 == (v / 128 % 512) * 128 + v % 128
  {
  }

  lemma ModSplitQuotient(q: int)
    ensures q % 512 == (q / 128 % 4) * 128 + q % 128
  {
  }

  lemma DivDiv(v: int)
    ensures v / 128 / 128 == v / 16384
    ensures v / 1024 / 16 == v / 16384
  {
  }

  lemma ModDiv(q: int)
    ensures q % 64 / 16 == q / 16 % 4
  {
  }

  lemma ModMod(q: int)
    ensures q % 256 % 64 == q % 64
  {
  }

  /** The three analog value fields put together again give the value modulo 2^16. */
  lemma AnalogFieldsSum(v: int)
    ensures (LowByte(v / 1024) & 0x30) as int / 16 * 16384
          + (LowByte(v / 128) & 0x7F) as int * 128
          + (LowByte(v) & 0x7F) as int == v % 65536
  {
    MaskTop(LowByte(v / 1024));
    ModDiv(v / 1024);
    ModMod(v / 1024);
    DivDiv(v);
    LowSevenBits(v / 128);
    LowSevenBits(v);
    ModSplit(v);
    ModSplitQuotient(v / 128);
  }

  // -------------------------------------------------------------- round trips

  /** The two join fields of an outbound frame put together again give the join. */
  lemma JoinFields(join: int)
    requires JoinPacks(join)
    ensures JoinHigh(join) as int == (join - 1) / 128
    ensures TopBitClear(JoinLow(join))
    ensures JoinHigh(join) as int * 128 + JoinLow(join) as int + 1 == join
  {
    JoinHighValue(join);
    JoinLowValue(join);
  }

  lemma JoinHighValue(join: int)
    requires JoinPacks(join)
    ensures JoinHigh(join) as int == (join - 1) / 128
  {
  }

  lemma JoinLowValue(join: int)
    ensures JoinLow(join) as int == (join - 1) % 128
    ensures TopBitClear(JoinLow(join))
  {
    LowSevenBits(join - 1);
  }

  /** The bit set_digital computes from the value is bit 5, set exactly for False. */
  lemma InvertedValueBit(value: bool)
    ensures LowByte(Invert(value) * 32) & 0x20 == if value then 0 else 0x20
  {
    if value {
      assert Invert(value) * 32 % 256 == 192;
    } else {
      assert Invert(value) * 32 % 256 == 224;
    }
  }

  /** The first byte of a digital frame with value bit `!value` and join bits `high`. */
  function DigitalLeadByte(high: byte, value: bool): byte
  {
    0x80 | (if value then 0 else 0x20) | high
  }

  lemma DigitalLeadBits(high: byte, value: bool)
    requires high < 32
    ensures var b0 := DigitalLeadByte(high, value);
      DigitalLead(b0) && b0 & 0x1F == high && DigitalValue(b0) == value && (b0 & 0x20 == 0x20 <==> !value)
  {
  }

  /** The two bytes set_digital packs for a join in the 12-bit range. */
  lemma DigitalBytes(join: int, value: bool)
    requires 1 <= join <= 4096
    ensures EncodeDigital(join, value) == Packed([DigitalLeadByte(JoinHigh(join), value), JoinLow(join)])
  {
    InvertedValueBit(value);
  }

  /** Decoding the two bytes set_digital writes for a join in 1..4096 gives
      back the join and the value; bit 5 of the first byte is `not value`. */
  lemma DigitalRoundTrip(join: int, value: bool)
    requires 1 <= join <= 4096
    ensures EncodeDigital(join, value).Packed?
    ensures var f := EncodeDigital(join, value).bytes;
      && |f| == 2
      && IsDigitalHeader(f[0], f[1])
      && DigitalJoin(f[0], f[1]) == join
      && DigitalValue(f[0]) == value
      && (f[0] & 0x20 == 0x20 <==> !value)
  {
    var high, low := JoinHigh(join), JoinLow(join);
    DigitalBytes(join, value);
    JoinFields(join);
    DigitalLeadBits(high, value);
    DigitalJoinArith(DigitalLeadByte(high, value), low);
  }

  /** The first byte of an analog frame: value bits `top`, join bits `high`. */
  function AnalogLeadByte(top: byte, high: byte): byte
  {
    0xC0 | top | high
  }

  lemma AnalogLeadBits(top: byte, high: byte)
    requires top & 0xCF == 0 && high < 8
    ensures var b0 := AnalogLeadByte(top, high);
      AnalogLead(b0) && b0 & 0x07 == high && b0 & 0x30 == top
  {
  }

  /** The header of an analog frame carries its join. */
  lemma AnalogHeaderField(top: byte, join: int)
    requires 1 <= join <= 1024 && top & 0xCF == 0
    ensures IsAnalogHeader(AnalogLeadByte(top, JoinHigh(join)), JoinLow(join))
    ensures WideJoin(AnalogLeadByte(top, JoinHigh(join)), JoinLow(join)) == join
    ensures AnalogLeadByte(top, JoinHigh(join)) & 0x30 == top
  {
    var high, low := JoinHigh(join), JoinLow(join);
    JoinFields(join);
    AnalogLeadBits(top, high);
    WideJoinArith(AnalogLeadByte(top, high), low);
  }

  /** The value bytes of an analog frame carry the value modulo 2^16. */
  lemma AnalogValueField(b0: byte, value: int)
    requires b0 & 0x30 == LowByte(value / 1024) & 0x30
    ensures AnalogValue(b0, LowByte(value / 128) & 0x7F, LowByte(value) & 0x7F) == value % 65536
  {
    LowSevenBits(value / 128);
    LowSevenBits(value);
    AnalogValueArith(b0, LowByte(value / 128) & 0x7F, LowByte(value) & 0x7F);
    AnalogFieldsSum(value);
  }

  /** Decoding the four bytes set_analog writes for a join in 1..1024 gives
      back the join and the value modulo 2^16: bits above 15 are dropped and a
      negative value arrives as its two's complement. */
  lemma AnalogWraps(join: int, value: int)
    requires 1 <= join <= 1024
    ensures EncodeAnalog(join, value).Packed?
    ensures var f := EncodeAnalog(join, value).bytes;
      && |f| == 4
      && IsAnalogHeader(f[0], f[1])
      && WideJoin(f[0], f[1]) == join
      && AnalogValue(f[0], f[2], f[3]) == value % 65536
  {
    var top := LowByte(value / 1024) & 0x30;
    var b0 := AnalogLeadByte(top, JoinHigh(join));
    assert EncodeAnalog(join, value)
        == Packed([b0, JoinLow(join), LowByte(value / 128) & 0x7F, LowByte(value) & 0x7F]);
    AnalogHeaderField(top, join);
    AnalogValueField(b0, value);
  }

  /** For a join in 1..1024 and a value in 0..65535 the analog frame round-trips
      exactly: four bytes, the join in the header, value bits 14-15 in bits 4-5
      of the first byte, and seven value bits in each of the last two bytes. */
  lemma AnalogRoundTrip(join: int, value: int)
    requires 1 <= join <= 1024 && 0 <= value <= 65535
    ensures EncodeAnalog(join, value).Packed?
    ensures var f := EncodeAnalog(join, value).bytes;
      && |f| == 4
      && IsAnalogHeader(f[0], f[1]) && WideJoin(f[0], f[1]) == join
      && TopBitClear(f[2]) && TopBitClear(f[3])
      && (f[0] & 0x30) as int / 16 == value / 16384
      && AnalogValue(f[0], f[2], f[3]) == value
  {
    assert value % 65536 == value;
    AnalogWraps(join, value);
    AnalogValueBytes(join, value);
    QuarterBelowFour(value);
  }

  lemma QuarterBelowFour(v: int)
    requires 0 <= v < 65536
    ensures v / 16384 % 4 == v / 16384
  {
    assert 0 <= v / 16384 < 4;
  }

  /** In any analog frame the two value bytes have bit 7 clear, and bits 4-5
      of the first byte carry value bits 14-15 for a join in 1..1024. */
  lemma AnalogValueBytes(join: int, value: int)
    requires 1 <= join <= 1024
    ensures EncodeAnalog(join, value).Packed?
    ensures var f := EncodeAnalog(join, value).bytes;
      && |f| == 4 && TopBitClear(f[2]) && TopBitClear(f[3])
      && (f[0] & 0x30) as int / 16 == value / 16384 % 4
  {
    var top := LowByte(value / 1024) & 0x30;
    AnalogHeaderField(top, join);
    LowSevenBits(value / 128);
    LowSevenBits(value);
    TopValueBits(value / 1024);
    DivDiv(value);
  }

  /** Bits 4-5 of the low byte of q are bits 4-5 of q. */
  lemma TopValueBits(q: int)
    ensures (LowByte(q) & 0x30) as int / 16 == q / 16 % 4
  {
    MaskTop(LowByte(q));
    ModMod(q);
    ModDiv(q);
  }

  /** struct.pack fails exactly for joins outside 1..32768, whichever frame is packed. */
  lemma PackErrorIff(join: int, value: bool, level: int, text: string)
    ensures EncodeDigital(join, value).PackError? <==> !(1 <= join <= 32768)
    ensures EncodeAnalog(join, level).PackError? <==> !(1 <= join <= 32768)
    ensures EncodeSerial(join, text).PackError? <==> !(1 <= join <= 32768)
  {
    assert JoinPacks(join) <==> 1 <= join <= 32768;
  }

  /** Digital joins above 4096 still pack, but the top join bits spill into the
      value bit and beyond: set_digital(4097, True) is read back as join 1 off. */
  lemma DigitalJoinAliasing()
    ensures EncodeDigital(4097, true) == Packed([0xA0, 0x00])
    ensures IsDigitalHeader(0xA0, 0x00) && DigitalJoin(0xA0, 0x00) == 1 && !DigitalValue(0xA0)
  {
    InvertedValueBit(true);
    assert JoinHigh(4097) == 0x20;
    assert JoinLow(4097) == 0;
    DigitalJoinArith(0xA0, 0x00);
  }

  /** Analog joins 1025..32768 still pack, but their high bits spill into the
      first byte: join bits 11-12 are OR-ed into value bits 14-15, join bit 10
      lands on the bit that tells analog from serial (so the frame reads as a
      serial header exactly when that bit is set), and in either case the
      10-bit join field reads back as the join modulo 1024, never the join sent. */
  lemma AnalogJoinOverflow(join: int, value: int)
    requires 1024 < join <= 32768
    ensures EncodeAnalog(join, value).Packed?
    ensures var f := EncodeAnalog(join, value).bytes;
      && |f| == 4 && TopBitClear(f[1])
      && (SerialLead(f[0]) <==> (join - 1) / 128 % 16 >= 8)
      && (AnalogLead(f[0]) <==> (join - 1) / 128 % 16 < 8)
      && f[0] & 0x30 == (LowByte(value / 1024) & 0x30) | (JoinHigh(join) & 0x30)
      && WideJoin(f[0], f[1]) == (join - 1) % 1024 + 1
      && WideJoin(f[0], f[1]) != join
  {
    AnalogFrameShape(join, value);
    JoinHighValue(join);
    JoinLowValue(join);
    OverflowHeader(LowByte(value / 1024) & 0x30, JoinHigh(join), JoinLow(join), join - 1);
  }

  /** The four bytes of set_analog's frame, the first one built by AnalogLeadByte. */
  lemma AnalogFrameShape(join: int, value: int)
    requires JoinPacks(join)
    ensures EncodeAnalog(join, value)
      == Packed([AnalogLeadByte(LowByte(value / 1024) & 0x30, JoinHigh(join)), JoinLow(join),
                 LowByte(value / 128) & 0x7F, LowByte(value) & 0x7F])
  {
  }

  /** The header fields of an analog frame for the zero-based join n. */
  lemma OverflowHeader(top: byte, high: byte, low: byte, n: int)
    requires top & 0xCF == 0 && TopBitClear(low)
    requires high as int == n / 128 && low as int == n % 128
    ensures var b0 := AnalogLeadByte(top, high);
      && (SerialLead(b0) <==> n / 128 % 16 >= 8)
      && (AnalogLead(b0) <==> n / 128 % 16 < 8)
      && b0 & 0x30 == top | (high & 0x30)
      && WideJoin(b0, low) == n % 1024 + 1
      && (n >= 1024 ==> WideJoin(b0, low) != n + 1)
  {
    OverflowLeadBits(top, high);
    HighJoinBits(high);
    WideJoinArith(AnalogLeadByte(top, high), low);
    ModSplitJoin(n);
  }

  /** The first analog byte keeps bit 3 and bits 0-2 of the join bits, and
      OR-s bits 4-5 of the join bits into the value bits. */
  lemma OverflowLeadBits(top: byte, high: byte)
    requires top & 0xCF == 0
    ensures var b0 := AnalogLeadByte(top, high);
      && b0 & 0xC8 == 0xC0 | (high & 0x08)
      && b0 & 0x07 == high & 0x07
      && b0 & 0x30 == top | (high & 0x30)
  {
  }

  /** Bit 3 and bits 0-2 of a byte, as arithmetic on its value. */
  lemma HighJoinBits(b: byte)
    ensures (b & 0x08 == 0x08) <==> b as int % 16 >= 8
    ensures (b & 0x07) as int == b as int % 8
  {
    var hi, m, l := (b >> 4) as int, ((b >> 3) & 1) as int, (b & 0x07) as int;
    ByteSplitEight(b);
    Digits16(b as int, hi, m * 8 + l);
    Digits8(b as int, hi * 2 + m, l);
  }

  /** A byte as the sum of bits 4-7, bit 3 and bits 0-2. */
  lemma ByteSplitEight(b: byte)
    ensures b as int == (b >> 4) as int * 16 + ((b >> 3) & 1) as int * 8 + (b & 0x07) as int
    ensures ((b >> 3) & 1) as int < 2 && (b & 0x07) as int < 8
    ensures (b & 0x08 == 0x08) <==> (b >> 3) & 1 == 1
  {
  }

  lemma Digits8(n: int, hi: int, lo: int)
    requires 0 <= lo < 8 && n == hi * 8 + lo
    ensures n % 8 == lo && n / 8 == hi
  {
  }

  lemma ModSplitJoin(n: int)
    ensures n % 1024 == (n / 128 % 8) * 128 + n % 128
  {
  }

  /** set_analog(1025, 0) sends a serial header. */
  lemma AnalogJoin1025()
    ensures EncodeAnalog(1025, 0) == Packed([0xC8, 0x00, 0x00, 0x00])
    ensures IsSerialHeader(0xC8, 0x00) && !IsAnalogHeader(0xC8, 0x00)
  {
    assert LowByte(0) == 0;
    JoinHighValue(1025);
    JoinLowValue(1025);
  }

  /** set_analog(2049, 0) sends an analog frame that reads as join 1 with
      level 16384. */
  lemma AnalogJoin2049()
    ensures EncodeAnalog(2049, 0) == Packed([0xD0, 0x00, 0x00, 0x00])
    ensures IsAnalogHeader(0xD0, 0x00) && WideJoin(0xD0, 0x00) == 1 && AnalogValue(0xD0, 0x00, 0x00) == 16384
  {
    assert LowByte(0) == 0;
    JoinLowValue(2049);
    assert JoinHigh(2049) == 0x10 by {
      var h := JoinHigh(2049);
      JoinHighValue(2049);
      assert h == (h as int) as byte;
    }
  }

  /** No header pair belongs to two classes, and the sync byte 0xFB would read
      as the lead byte of a serial frame if it were not tested first. */
  lemma HeaderClassesExclusive(b0: byte, b1: byte)
    ensures !(IsDigitalHeader(b0, b1) && IsAnalogHeader(b0, b1))
    ensures !(IsDigitalHeader(b0, b1) && IsSerialHeader(b0, b1))
    ensures !(IsAnalogHeader(b0, b1) && IsSerialHeader(b0, b1))
    ensures SerialLead(SyncAllRequest)
  {
  }

  /** Whatever the bytes, decoded joins and analog values stay in their fields' ranges. */
  lemma DecodedRanges(b0: byte, b1: byte, b2: byte, b3: byte)
    requires TopBitClear(b1)
    ensures 1 <= DigitalJoin(b0, b1) <= 4096
    ensures 1 <= WideJoin(b0, b1) <= 1024
    ensures 0 <= AnalogValue(b0, b2, b3) <= 65535
  {
    DigitalJoinArith(b0, b1);
    WideJoinArith(b0, b1);
  }

  /** str.encode() of an ASCII string is one byte per character, its code. */
  lemma {:induction false} Utf8OfAscii(s: string)
    requires IsAscii(s)
    ensures Utf8(s) == seq(|s|, i requires 0 <= i < |s| => ByteOf(s[i] as int))
  {
    if s != [] {
      var rest := s[1..];
      assert IsAscii(rest) by {
        forall i | 0 <= i < |rest| ensures rest[i] as int < 0x80 { assert rest[i] == s[i + 1]; }
      }
      Utf8OfAscii(rest);
      var head := Utf8Char(s[0]);
      assert head == [ByteOf(s[0] as int)];
      assert Utf8(s) == head + Utf8(rest);
      forall i | 0 <= i < |s| ensures Utf8(s)[i] == ByteOf(s[i] as int) {
        if i > 0 { assert Utf8(s)[i] == Utf8(rest)[i - 1]; }
      }
    }
  }

  /** An ASCII string survives str.encode() followed by bytes.decode("ascii"). */
  lemma AsciiRoundTrip(s: string)
    requires IsAscii(s)
    ensures AsciiDecode(Utf8(s)) == Some(s)
  {
    Utf8OfAscii(s);
    var b := Utf8(s);
    forall i | 0 <= i < |b|
      ensures b[i] < 0x80 && b[i] as int as char == s[i]
    {
    }
    assert seq(|b|, i requires 0 <= i < |b| => b[i] as int as char) == s;
  }

  lemma SerialLeadBits(high: byte)
    requires high < 8
    ensures SerialLead(0xC8 | high) && (0xC8 | high) & 0x07 == high
  {
  }

  /** The outbound serial frame for a join in 1..1024: a serial header carrying
      the join, then the encoded string, then the 0xFF terminator. */
  lemma SerialFrameLayout(join: int, text: string)
    requires 1 <= join <= 1024
    ensures EncodeSerial(join, text).Packed?
    ensures var f := EncodeSerial(join, text).bytes;
      && |f| == |Utf8(text)| + 3
      && IsSerialHeader(f[0], f[1])
      && WideJoin(f[0], f[1]) == join
      && f[2..|f| - 1] == Utf8(text)
      && f[|f| - 1] == SerialTerminator
  {
    var high, low := JoinHigh(join), JoinLow(join);
    JoinFields(join);
    SerialLeadBits(high);
    WideJoinArith(0xC8 | high, low);
    var f := EncodeSerial(join, text).bytes;
    assert f == [0xC8 | high, low] + Utf8(text) + [SerialTerminator];
    assert f[2..|f| - 1] == Utf8(text);
  }
}

=== FILE: hub.dfy ===
/** The Home Assistant side of the integration (__init__.py): the rule that
    turns a configured join key such as "d12", "a3" or "s7" and a rendered
    template result into a set_digital, set_analog or set_serial call, the two
    loops that apply it (template_change_callback and sync_joins_to_hub), the
    reaction to a join notified by the control system (join_change_callback),
    and the set_serial service.

    Templates, services and scripts belong to Home Assistant and are
    represented by identities; the rendered results are parameters. */
module Hub {
  import opened PyBuiltins
  import opened Stream
  import opened Xsig

  type TemplateId = nat
  type ScriptId = nat
  type ServiceData = nat

  // ------------------------------------------------------------ key dispatch

  /** The set_* call one join key and one result ask for: none, one call, or
      an exception (int() of the join number or of the result failed). */
  datatype Command = NoCall | Issue(write: JoinWrite) | Raise

  /** The digital coercion: "on", "True" or True is on; "off", "False" or
      False is off; anything else, including the ints 1 and 0, is neither. */
  function DigitalCoercion(v: PyValue): Option<bool>
  {
    if v == PyStr("on") || v == PyStr("True") || v == PyBool(true) then Some(true)
    else if v == PyStr("off") || v == PyStr("False") || v == PyBool(false) then Some(false)
    else None
  }

  lemma DigitalCoercionIff(v: PyValue)
    ensures DigitalCoercion(v) == Some(true) <==> v in {PyStr("on"), PyStr("True"), PyBool(true)}
    ensures DigitalCoercion(v) == Some(false) <==> v in {PyStr("off"), PyStr("False"), PyBool(false)}
    ensures DigitalCoercion(v).None? <==> v !in {PyStr("on"), PyStr("True"), PyBool(true), PyStr("off"), PyStr("False"), PyBool(false)}
  {
  }

  /** The join-type letter of a key: key[:1]. */
  function Prefix(key: string): string
  {
    if |key| == 0 then "" else key[..1]
  }

  /** int(key[1:]): the join number of a key. */
  function KeyJoin(key: string): Option<int>
  {
    if |key| == 0 then ParseInt("") else ParseInt(key[1..])
  }

  /** The body of the per-join dispatch shared by template_change_callback
      and sync_joins_to_hub: the prefix picks the join type, int(key[1:]) the
      join number, and the result is coerced for that type. A digital result
      that is neither on nor off makes no call and parses no join number. */
  function Dispatch(key: string, result: PyValue): Command
  {
    if Prefix(key) == "d" then
      match DigitalCoercion(result)
      case None => NoCall
      case Some(value) =>
        if KeyJoin(key).None? then Raise else Issue(DigitalWrite(KeyJoin(key).value, value))
    else if Prefix(key) == "a" then
      if KeyJoin(key).None? || ToInt(result).None? then Raise
      else Issue(AnalogWrite(KeyJoin(key).value, ToInt(result).value))
    else if Prefix(key) == "s" then
      if KeyJoin(key).None? then Raise else Issue(SerialWrite(KeyJoin(key).value, Str(result)))
    else NoCall
  }

  /** What each kind of key does with a result: the prefix alone selects the
      join type, the join number is always int(key[1:]), and the result
      reaches the call coerced for that type. */
  lemma DispatchCases(key: string, result: PyValue)
    ensures var c := Dispatch(key, result);
      && (c.Issue? ==> KeyJoin(key) == Some(c.write.join))
      && (c.Issue? && c.write.DigitalWrite? <==> Prefix(key) == "d" && DigitalCoercion(result).Some? && KeyJoin(key).Some?)
      && (c.Issue? && c.write.DigitalWrite? ==> DigitalCoercion(result) == Some(c.write.value))
      && (c.Issue? && c.write.AnalogWrite? <==> Prefix(key) == "a" && KeyJoin(key).Some? && ToInt(result).Some?)
      && (c.Issue? && c.write.AnalogWrite? ==> ToInt(result) == Some(c.write.level))
      && (c.Issue? && c.write.SerialWrite? <==> Prefix(key) == "s" && KeyJoin(key).Some?)
      && (c.Issue? && c.write.SerialWrite? ==> c.write.text == Str(result))
      && (c.Raise? <==> (Prefix(key) == "d" && DigitalCoercion(result).Some? && KeyJoin(key).None?)
                        || (Prefix(key) == "a" && (KeyJoin(key).None? || ToInt(result).None?))
                        || (Prefix(key) == "s" && KeyJoin(key).None?))
      && (Prefix(key) !in {"d", "a", "s"} ==> c == NoCall)
  {
  }

  /** The key a notification is delivered under is a key the dispatch reads
      back to the same join type and join number. */
  lemma NoticeKeyDispatches(e: Event)
    requires !e.SyncRequested?
    ensures KeyJoin(Notice(e).key) == Some(e.join)
    ensures Prefix(Notice(e).key) == (if e.DigitalChanged? then "d" else if e.AnalogChanged? then "a" else "s")
  {
    var key := Notice(e).key;
    assert key[1..] == IntToStr(e.join);
    IntToStrRoundTrip(e.join);
  }

  /** A digital state echoed back under its own key asks for the same digital
      write; an analog level echoed as its decimal string asks for the same
      analog write. */
  lemma EchoDispatch(e: Event)
    requires e.DigitalChanged? || e.AnalogChanged?
    ensures e.DigitalChanged? ==>
      Dispatch(Notice(e).key, PyBool(e.value)) == Issue(DigitalWrite(e.join, e.value))
    ensures e.AnalogChanged? ==>
      Dispatch(Notice(e).key, PyStr(Notice(e).value)) == Issue(AnalogWrite(e.join, e.level))
  {
    NoticeKeyDispatches(e);
    var key := Notice(e).key;
    if e.DigitalChanged? {
      assert Prefix(key) == "d" && DigitalCoercion(PyBool(e.value)) == Some(e.value);
    } else {
      IntToStrRoundTrip(e.level);
      assert Prefix(key) == "a" && ToInt(PyStr(Notice(e).value)) == Some(e.level);
    }
  }

  /** The effect of one dispatch on the connection: a set_* call through
      Transmit, or the exception of a failed int(). */
  function Perform(writer: Option<Connection>, c: Command): Transmission
  {
    match c
    case NoCall => Transmission([], false)
    case Raise => Transmission([], true)
    case Issue(w) => Transmit(writer, w)
  }

  /** Two steps in sequence; an exception in the first skips the second. */
  function Then(first: Transmission, second: Transmission): (t: Transmission)
    ensures first.raised ==> t == first
    ensures !first.raised ==> t.writes == first.writes + second.writes && t.raised == second.raised
  {
    if first.raised then first else Transmission(first.writes + second.writes, second.raised)
  }

  // ------------------------------------------------------------ to_hub templates

  /** One entry of the to_hub dict: a join key and its template. */
  datatype ToHubEntry = ToHubEntry(key: string, template: TemplateId)

  /** One TrackTemplateResult: the template that changed and its new result. */
  datatype TemplateUpdate = TemplateUpdate(template: TemplateId, result: PyValue)

  /** One to_hub entry for one update: only an entry whose template changed
      is dispatched. */
  function EntryRun(writer: Option<Connection>, entry: ToHubEntry, u: TemplateUpdate): Transmission
  {
    if entry.template == u.template then Perform(writer, Dispatch(entry.key, u.result)) else Transmission([], false)
  }

  /** The inner loop over the to_hub entries, in order, stopping at an exception. */
  function EntriesRun(writer: Option<Connection>, toHub: seq<ToHubEntry>, u: TemplateUpdate): Transmission
  {
    if toHub == [] then Transmission([], false)
    else Then(EntriesRun(writer, toHub[..|toHub| - 1], u), EntryRun(writer, toHub[|toHub| - 1], u))
  }

  /** One update: a result equal to "None" is ignored. */
  function UpdateRun(writer: Option<Connection>, toHub: seq<ToHubEntry>, u: TemplateUpdate): Transmission
  {
    if u.result == PyStr("None") then Transmission([], false) else EntriesRun(writer, toHub, u)
  }

  /** template_change_callback over a list of updates, stopping at the first
      exception. */
  function TemplateRun(writer: Option<Connection>, toHub: seq<ToHubEntry>, updates: seq<TemplateUpdate>): Transmission
  {
    if updates == [] then Transmission([], false)
    else Then(TemplateRun(writer, toHub, updates[..|updates| - 1]), UpdateRun(writer, toHub, updates[|updates| - 1]))
  }

  lemma EntriesRunLast(writer: Option<Connection>, toHub: seq<ToHubEntry>, u: TemplateUpdate, j: nat)
    requires j < |toHub|
    ensures EntriesRun(writer, toHub[..j + 1], u) == Then(EntriesRun(writer, toHub[..j], u), EntryRun(writer, toHub[j], u))
  {
    assert toHub[..j + 1][..j] == toHub[..j];
  }

  lemma EntriesRunStep(writer: Option<Connection>, toHub: seq<ToHubEntry>, u: TemplateUpdate, j: nat, start: seq<Write>)
    requires j < |toHub| && !EntriesRun(writer, toHub[..j], u).raised
    ensures start + EntriesRun(writer, toHub[..j + 1], u).writes
      == (start + EntriesRun(writer, toHub[..j], u).writes) + EntryRun(writer, toHub[j], u).writes
    ensures EntriesRun(writer, toHub[..j + 1], u).raised == EntryRun(writer, toHub[j], u).raised
  {
    EntriesRunLast(writer, toHub, u, j);
  }

  lemma TemplateRunLast(writer: Option<Connection>, toHub: seq<ToHubEntry>, updates: seq<TemplateUpdate>, i: nat)
    requires i < |updates|
    ensures TemplateRun(writer, toHub, updates[..i + 1])
      == Then(TemplateRun(writer, toHub, updates[..i]), UpdateRun(writer, toHub, updates[i]))
  {
    assert updates[..i + 1][..i] == updates[..i];
  }

  lemma TemplateRunStep(writer: Option<Connection>, toHub: seq<ToHubEntry>, updates: seq<TemplateUpdate>, i: nat, start: seq<Write>)
    requires i < |updates| && !TemplateRun(writer, toHub, updates[..i]).raised
    ensures start + TemplateRun(writer, toHub, updates[..i + 1]).writes
      == (start + TemplateRun(writer, toHub, updates[..i]).writes) + UpdateRun(writer, toHub, updates[i]).writes
    ensures TemplateRun(writer, toHub, updates[..i + 1]).raised == UpdateRun(writer, toHub, updates[i]).raised
  {
    TemplateRunLast(writer, toHub, updates, i);
  }

  /** Once the inner loop has raised, the later entries change nothing. */
  lemma {:induction false} EntriesRaiseFinal(writer: Option<Connection>, toHub: seq<ToHubEntry>, u: TemplateUpdate, k: nat)
    requires k <= |toHub| && EntriesRun(writer, toHub[..k], u).raised
    ensures EntriesRun(writer, toHub, u) == EntriesRun(writer, toHub[..k], u)
    decreases |toHub| - k
  {
    if k < |toHub| {
      assert toHub[..k + 1][..k] == toHub[..k];
      EntriesRaiseFinal(writer, toHub, u, k + 1);
    } else {
      assert toHub[..k] == toHub;
    }
  }

  /** Once an update has raised, the later updates change nothing. */
  lemma {:induction false} TemplateRaiseFinal(writer: Option<Connection>, toHub: seq<ToHubEntry>, updates: seq<TemplateUpdate>, k: nat)
    requires k <= |updates| && TemplateRun(writer, toHub, updates[..k]).raised
    ensures TemplateRun(writer, toHub, updates) == TemplateRun(writer, toHub, updates[..k])
    decreases |updates| - k
  {
    if k < |updates| {
      assert updates[..k + 1][..k] == updates[..k];
      TemplateRaiseFinal(writer, toHub, updates, k + 1);
    } else {
      assert updates[..k] == updates;
    }
  }

  /** An update whose template no entry uses sends nothing and cannot raise. */
  lemma {:induction false} UnusedTemplateQuiet(writer: Option<Connection>, toHub: seq<ToHubEntry>, u: TemplateUpdate)
    requires forall k :: 0 <= k < |toHub| ==> toHub[k].template != u.template
    ensures UpdateRun(writer, toHub, u) == Transmission([], false)
    decreases |toHub|
  {
    if toHub != [] {
      UnusedTemplateQuiet(writer, toHub[..|toHub| - 1], u);
    }
  }

  /** Without a connection nothing is sent, and only a failed int() raises. */
  lemma {:induction false} TemplateRunOffline(toHub: seq<ToHubEntry>, updates: seq<TemplateUpdate>)
    ensures TemplateRun(None, toHub, updates).writes == []
    decreases |updates|
  {
    if updates != [] {
      TemplateRunOffline(toHub, updates[..|updates| - 1]);
      EntriesRunOffline(toHub, updates[|updates| - 1]);
    }
  }

  lemma {:induction false} EntriesRunOffline(toHub: seq<ToHubEntry>, u: TemplateUpdate)
    ensures EntriesRun(None, toHub, u).writes == []
    decreases |toHub|
  {
    if toHub != [] {
      EntriesRunOffline(toHub[..|toHub| - 1], u);
    }
  }

  // ------------------------------------------------------------ sync_joins_to_hub

  /** The outcome of template.async_render() for one entry. */
  datatype Rendering = Rendered(value: PyValue) | RenderFailed

  /** One entry of sync_joins_to_hub: None, "unknown" and a failed render are
      skipped; every exception of the dispatch or of set_* is logged and the
      entry is skipped. */
  function JoinSync(writer: Option<Connection>, entry: ToHubEntry, r: Rendering): (ws: seq<Write>)
    ensures r.RenderFailed? || r.value == PyNone || r.value == PyStr("unknown") ==> ws == []
    ensures |ws| <= 1
  {
    if r.RenderFailed? || r.value == PyNone || r.value == PyStr("unknown") then []
    else
      var c := Dispatch(entry.key, r.value);
      if c.Issue? then TransmitShape(writer, c.write); Transmit(writer, c.write).writes else []
  }

  /** sync_joins_to_hub: every entry in order; none can stop the others. */
  function SyncRun(writer: Option<Connection>, toHub: seq<ToHubEntry>, renders: seq<Rendering>): seq<Write>
    requires |renders| == |toHub|
  {
    if toHub == [] then []
    else SyncRun(writer, toHub[..|toHub| - 1], renders[..|renders| - 1])
         + JoinSync(writer, toHub[|toHub| - 1], renders[|renders| - 1])
  }

  lemma SyncRunLast(writer: Option<Connection>, toHub: seq<ToHubEntry>, renders: seq<Rendering>, i: nat)
    requires |renders| == |toHub| && i < |toHub|
    ensures SyncRun(writer, toHub[..i + 1], renders[..i + 1])
      == SyncRun(writer, toHub[..i], renders[..i]) + JoinSync(writer, toHub[i], renders[i])
  {
    assert toHub[..i + 1][..i] == toHub[..i] && renders[..i + 1][..i] == renders[..i];
  }

  lemma SyncRunStep(writer: Option<Connection>, toHub: seq<ToHubEntry>, renders: seq<Rendering>, i: nat, start: seq<Write>)
    requires |renders| == |toHub| && i < |toHub|
    ensures start + SyncRun(writer, toHub[..i + 1], renders[..i + 1])
      == (start + SyncRun(writer, toHub[..i], renders[..i])) + JoinSync(writer, toHub[i], renders[i])
  {
    SyncRunLast(writer, toHub, renders, i);
  }

  /** An entry that is not skipped sends what its dispatch sends. */
  lemma JoinSyncPerform(writer: Option<Connection>, entry: ToHubEntry, r: Rendering)
    requires !(r.RenderFailed? || r.value == PyNone || r.value == PyStr("unknown"))
    ensures JoinSync(writer, entry, r) == Perform(writer, Dispatch(entry.key, r.value)).writes
  {
  }

  /** The writes of two stretches of the to_hub dict are those of each: a
      failing entry never stops a later one. */
  lemma {:induction false} SyncRunSplit(writer: Option<Connection>, a: seq<ToHubEntry>, b: seq<ToHubEntry>,
                                        ra: seq<Rendering>, rb: seq<Rendering>)
    requires |ra| == |a| && |rb| == |b|
    ensures SyncRun(writer, a + b, ra + rb) == SyncRun(writer, a, ra) + SyncRun(writer, b, rb)
    decreases |b|
  {
    if b == [] {
      assert a + b == a && ra + rb == ra;
    } else {
      var n := |b| - 1;
      var b', rb', x, r := b[..n], rb[..n], b[n], rb[n];
      assert b == b' + [x] && rb == rb' + [r];
      assert a + b == (a + b') + [x] && ra + rb == (ra + rb') + [r];
      SyncRunSplit(writer, a, b', ra, rb');
      SyncRunSnoc(writer, a + b', ra + rb', x, r);
      SyncRunSnoc(writer, b', rb', x, r);
      AppendAssoc(SyncRun(writer, a, ra), SyncRun(writer, b', rb'), JoinSync(writer, x, r));
    }
  }

  lemma SyncRunSnoc(writer: Option<Connection>, toHub: seq<ToHubEntry>, renders: seq<Rendering>, entry: ToHubEntry, r: Rendering)
    requires |renders| == |toHub|
    ensures SyncRun(writer, toHub + [entry], renders + [r]) == SyncRun(writer, toHub, renders) + JoinSync(writer, entry, r)
  {
    assert (toHub + [entry])[..|toHub|] == toHub && (renders + [r])[..|renders|] == renders;
  }

  /** Each entry whose value is dispatched to a set_* call reaches the
      connection, whatever the entries before it did. */
  lemma SyncReachesEntry(writer: Option<Connection>, toHub: seq<ToHubEntry>, renders: seq<Rendering>, k: nat)
    requires |renders| == |toHub| && k < |toHub|
    ensures SyncRun(writer, toHub, renders)
      == SyncRun(writer, toHub[..k], renders[..k]) + JoinSync(writer, toHub[k], renders[k])
         + SyncRun(writer, toHub[k + 1..], renders[k + 1..])
  {
    var a, b, x := toHub[..k], toHub[k + 1..], toHub[k];
    var ra, rb, r := renders[..k], renders[k + 1..], renders[k];
    assert toHub == (a + [x]) + b;
    assert renders == (ra + [r]) + rb;
    SyncRunSplit(writer, a + [x], b, ra + [r], rb);
    assert (a + [x])[..k] == a && (ra + [r])[..k] == ra;
  }

  // ------------------------------------------------------------ from_hub joins

  /** One entry of the from_hub list: the join key it watches, and either a
      service with its data or a script. */
  datatype FromHubEntry = FromHubEntry(join: string, service: Option<string>, serviceData: Option<ServiceData>,
                                       script: Option<ScriptId>)

  /** What join_change_callback asks Home Assistant to do. */
  datatype Action = ServiceCall(domain: string, service: string, data: ServiceData) | ScriptRun(script: ScriptId, value: string)

  /** The actions taken and whether the callback raised. */
  datatype Reaction = Reaction(actions: seq<Action>, raised: bool)

  /** s.split("."): the pieces between the dots, as many as the dots plus one. */
  function SplitDot(s: string): (parts: seq<string>)
    ensures |parts| >= 1
  {
    if s == [] then [""]
    else if s[0] == '.' then [""] + SplitDot(s[1..])
    else
      var rest := SplitDot(s[1..]);
      [[s[0]] + rest[0]] + rest[1..]
  }

  function Dots(s: string): nat
  {
    if s == [] then 0 else (if s[0] == '.' then 1 else 0) + Dots(s[1..])
  }

  /** Joining the pieces with dots gives back the string, and there is one
      piece more than there are dots. */
  lemma {:induction false} SplitDotJoin(s: string)
    ensures |SplitDot(s)| == Dots(s) + 1
    ensures forall k :: 0 <= k < |SplitDot(s)| ==> Dots(SplitDot(s)[k]) == 0
    ensures s == JoinDot(SplitDot(s))
  {
    if s != [] {
      SplitDotJoin(s[1..]);
      var rest := SplitDot(s[1..]);
      if s[0] == '.' {
        assert SplitDot(s) == [""] + rest;
        JoinDotCons("", rest);
      } else {
        var parts := SplitDot(s);
        assert parts[0] == [s[0]] + rest[0];
        assert Dots([s[0]] + rest[0]) == Dots(rest[0]) by { assert ([s[0]] + rest[0])[1..] == rest[0]; }
        assert forall k :: 1 <= k < |parts| ==> parts[k] == rest[k];
        JoinDotHead(s[0], rest);
      }
    }
  }

  /** The pieces joined with dots: the first piece, then a dot before each
      later one. */
  function JoinDot(parts: seq<string>): string
    requires |parts| >= 1
  {
    parts[0] + DotTail(parts[1..])
  }

  function DotTail(parts: seq<string>): string
  {
    if parts == [] then [] else "." + parts[0] + DotTail(parts[1..])
  }

  lemma JoinDotCons(head: string, rest: seq<string>)
    requires |rest| >= 1
    ensures JoinDot([head] + rest) == head + "." + JoinDot(rest)
  {
    assert ([head] + rest)[1..] == rest;
    assert DotTail(rest) == "." + rest[0] + DotTail(rest[1..]);
  }

  lemma JoinDotHead(c: char, rest: seq<string>)
    requires |rest| >= 1
    ensures JoinDot([[c] + rest[0]] + rest[1..]) == [c] + JoinDot(rest)
  {
    var tail := DotTail(rest[1..]);
    assert ([[c] + rest[0]] + rest[1..])[1..] == rest[1..];
    assert ([c] + rest[0]) + tail == [c] + (rest[0] + tail);
  }

  /** A service name splits into (domain, service) exactly when it has one
      dot; the two pieces joined by that dot are the name. */
  lemma ServiceSplit(name: string)
    ensures |SplitDot(name)| == 2 <==> Dots(name) == 1
    ensures |SplitDot(name)| == 2 ==> name == SplitDot(name)[0] + "." + SplitDot(name)[1]
  {
    SplitDotJoin(name);
    var parts := SplitDot(name);
    if |parts| == 2 {
      assert parts[1..] == [parts[1]];
      assert DotTail([parts[1]]) == "." + parts[1] + DotTail([]);
      assert JoinDot(parts) == parts[0] + ("." + parts[1]);
    }
  }

  /** One from_hub entry for a notification (key, value): only a matching
      key acts, a digital key with value "0" is ignored, a service needs its
      data and a name that splits in two (otherwise ValueError), and a
      script runs with the value. */
  function EntryReaction(entry: FromHubEntry, key: string, value: string): Reaction
  {
    if key != entry.join then Reaction([], false)
    else if Prefix(key) == "d" && value == "0" then Reaction([], false)
    else if entry.service.Some? && entry.serviceData.Some? then
      var parts := SplitDot(entry.service.value);
      if |parts| != 2 then Reaction([], true)
      else Reaction([ServiceCall(parts[0], parts[1], entry.serviceData.value)], false)
    else if entry.script.Some? then Reaction([ScriptRun(entry.script.value, value)], false)
    else Reaction([], false)
  }

  function Continue(first: Reaction, second: Reaction): (r: Reaction)
    ensures first.raised ==> r == first
    ensures !first.raised ==> r.actions == first.actions + second.actions && r.raised == second.raised
  {
    if first.raised then first else Reaction(first.actions + second.actions, second.raised)
  }

  /** join_change_callback: the from_hub entries in order, stopping at an
      exception. */
  function JoinChangeRun(fromHub: seq<FromHubEntry>, key: string, value: string): Reaction
  {
    if fromHub == [] then Reaction([], false)
    else Continue(JoinChangeRun(fromHub[..|fromHub| - 1], key, value), EntryReaction(fromHub[|fromHub| - 1], key, value))
  }

  lemma JoinChangeRunLast(fromHub: seq<FromHubEntry>, key: string, value: string, i: nat)
    requires i < |fromHub|
    ensures JoinChangeRun(fromHub[..i + 1], key, value)
      == Continue(JoinChangeRun(fromHub[..i], key, value), EntryReaction(fromHub[i], key, value))
  {
    assert fromHub[..i + 1][..i] == fromHub[..i];
  }

  lemma JoinChangeRunStep(fromHub: seq<FromHubEntry>, key: string, value: string, i: nat, start: seq<Action>)
    requires i < |fromHub| && !JoinChangeRun(fromHub[..i], key, value).raised
    ensures start + JoinChangeRun(fromHub[..i + 1], key, value).actions
      == (start + JoinChangeRun(fromHub[..i], key, value).actions) + EntryReaction(fromHub[i], key, value).actions
    ensures JoinChangeRun(fromHub[..i + 1], key, value).raised == EntryReaction(fromHub[i], key, value).raised
  {
    JoinChangeRunLast(fromHub, key, value, i);
  }

  /** A key no entry watches, or a digital key going to "0", causes nothing. */
  lemma {:induction false} JoinChangeQuiet(fromHub: seq<FromHubEntry>, key: string, value: string)
    requires (Prefix(key) == "d" && value == "0") || forall k :: 0 <= k < |fromHub| ==> fromHub[k].join != key
    ensures JoinChangeRun(fromHub, key, value) == Reaction([], false)
    decreases |fromHub|
  {
    if fromHub != [] {
      JoinChangeQuiet(fromHub[..|fromHub| - 1], key, value);
    }
  }

  /** Every action is one a watching entry asks for: a service call names the
      entry's service, split at its dot, with the entry's data; a script run
      carries the notified value. */
  lemma {:induction false} JoinChangeActionsWatched(fromHub: seq<FromHubEntry>, key: string, value: string, k: nat)
    requires k < |JoinChangeRun(fromHub, key, value).actions|
    ensures var a := JoinChangeRun(fromHub, key, value).actions[k];
      exists i :: 0 <= i < |fromHub| && fromHub[i].join == key && EntryReaction(fromHub[i], key, value).actions == [a]
    decreases |fromHub|
  {
    var front := fromHub[..|fromHub| - 1];
    var last := fromHub[|fromHub| - 1];
    var pre := JoinChangeRun(front, key, value);
    var a := JoinChangeRun(fromHub, key, value).actions[k];
    if k < |pre.actions| {
      JoinChangeActionsWatched(front, key, value, k);
      var i :| 0 <= i < |front| && front[i].join == key && EntryReaction(front[i], key, value).actions == [a];
      assert fromHub[i] == front[i];
    } else {
      var i := |fromHub| - 1;
      assert EntryReaction(last, key, value).actions == [a];
    }
  }

  // ------------------------------------------------------------ the hub object

  class CrestronHub {
    /** The XSIG server this hub wraps. */
    const xsig: CrestronXsig
    /** The to_hub dict in insertion order. */
    const toHub: seq<ToHubEntry>
    /** The from_hub list. */
    const fromHub: seq<FromHubEntry>
    /** Every service call and script run, in order. */
    var actions: seq<Action>

    constructor (xsig: CrestronXsig, toHub: seq<ToHubEntry>, fromHub: seq<FromHubEntry>)
      ensures this.xsig == xsig && this.toHub == toHub && this.fromHub == fromHub && actions == []
    {
      this.xsig := xsig;
      this.toHub := toHub;
      this.fromHub := fromHub;
      actions := [];
    }

    /** template_change_callback(event, updates). */
    method TemplateChangeCallback(updates: seq<TemplateUpdate>) returns (raised: bool)
      modifies xsig`outbox
      ensures xsig.outbox == old(xsig.outbox) + TemplateRun(xsig.writer, toHub, updates).writes
      ensures raised == TemplateRun(xsig.writer, toHub, updates).raised
    {
      raised := false;
      ghost var w := xsig.writer;
      for i := 0 to |updates|
        invariant xsig.writer == w
        invariant xsig.outbox == old(xsig.outbox) + TemplateRun(w, toHub, updates[..i]).writes
        invariant !TemplateRun(w, toHub, updates[..i]).raised
      {
        raised := Update(updates[i]);
        TemplateRunStep(w, toHub, updates, i, old(xsig.outbox));
        if raised {
          TemplateRaiseFinal(w, toHub, updates, i + 1);
          return;
        }
      }
      assert updates[..|updates|] == updates;
    }

    /** The body of template_change_callback for one update: unless the
        result is "None", every to_hub entry using the changed template is
        dispatched, until one raises. */
    method Update(u: TemplateUpdate) returns (raised: bool)
      modifies xsig`outbox
      ensures xsig.outbox == old(xsig.outbox) + UpdateRun(xsig.writer, toHub, u).writes
      ensures raised == UpdateRun(xsig.writer, toHub, u).raised
    {
      raised := false;
      if u.result == PyStr("None") {
        return;
      }
      for j := 0 to |toHub|
        invariant xsig.outbox == old(xsig.outbox) + EntriesRun(xsig.writer, toHub[..j], u).writes
        invariant !EntriesRun(xsig.writer, toHub[..j], u).raised
      {
        EntriesRunStep(xsig.writer, toHub, u, j, old(xsig.outbox));
        if toHub[j].template == u.template {
          raised := Forward(toHub[j].key, u.result);
          if raised {
            EntriesRaiseFinal(xsig.writer, toHub, u, j + 1);
            return;
          }
        }
      }
      assert toHub[..|toHub|] == toHub;
    }

    /** One dispatch and the set_* call it selects. */
    method Forward(key: string, result: PyValue) returns (raised: bool)
      modifies xsig`outbox
      ensures xsig.outbox == old(xsig.outbox) + Perform(xsig.writer, Dispatch(key, result)).writes
      ensures raised == Perform(xsig.writer, Dispatch(key, result)).raised
    {
      match Dispatch(key, result)
      case NoCall => raised := false;
      case Raise => raised := true;
      case Issue(w) => raised := xsig.Send(w);
    }

    /** sync_joins_to_hub(), with the rendering of each to_hub template. */
    method SyncJoinsToHub(renders: seq<Rendering>)
      requires |renders| == |toHub|
      modifies xsig`outbox
      ensures xsig.outbox == old(xsig.outbox) + SyncRun(xsig.writer, toHub, renders)
    {
      ghost var w := xsig.writer;
      for i := 0 to |toHub|
        invariant xsig.writer == w
        invariant xsig.outbox == old(xsig.outbox) + SyncRun(w, toHub[..i], renders[..i])
      {
        SyncRunStep(w, toHub, renders, i, old(xsig.outbox));
        SyncEntry(toHub[i], renders[i]);
      }
      assert toHub[..|toHub|] == toHub && renders[..|renders|] == renders;
    }

    /** The body of sync_joins_to_hub for one entry: a skipped rendering sends
        nothing, any other is dispatched and its exception is swallowed. */
    method SyncEntry(entry: ToHubEntry, r: Rendering)
      modifies xsig`outbox
      ensures xsig.outbox == old(xsig.outbox) + JoinSync(xsig.writer, entry, r)
    {
      if r.RenderFailed? || r.value == PyNone || r.value == PyStr("unknown") {
        return;
      }
      JoinSyncPerform(xsig.writer, entry, r);
      var ignored := Forward(entry.key, r.value);
    }

    /** join_change_callback(cbtype, value). */
    method JoinChangeCallback(key: string, value: string) returns (raised: bool)
      modifies this`actions
      ensures actions == old(actions) + JoinChangeRun(fromHub, key, value).actions
      ensures raised == JoinChangeRun(fromHub, key, value).raised
    {
      raised := false;
      for i := 0 to |fromHub|
        invariant actions == old(actions) + JoinChangeRun(fromHub[..i], key, value).actions
        invariant !JoinChangeRun(fromHub[..i], key, value).raised
      {
        JoinChangeRunStep(fromHub, key, value, i, old(actions));
        var entry := fromHub[i];
        if key == entry.join {
          if Prefix(key) == "d" && value == "0" {
          } else if entry.service.Some? && entry.serviceData.Some? {
            var parts := SplitDot(entry.service.value);
            if |parts| != 2 {
              JoinChangeRaiseFinal(fromHub, key, value, i + 1);
              return true;
            }
            actions := actions + [ServiceCall(parts[0], parts[1], entry.serviceData.value)];
          } else if entry.script.Some? {
            actions := actions + [ScriptRun(entry.script.value, value)];
          }
        }
      }
      assert fromHub[..|fromHub|] == fromHub;
    }

    /** The set_serial service: the value is always passed through str(). */
    method SetSerialService(join: int, value: PyValue) returns (raised: bool)
      modifies xsig`outbox
      ensures xsig.outbox == old(xsig.outbox) + Transmit(xsig.writer, SerialWrite(join, Str(value))).writes
      ensures raised == Transmit(xsig.writer, SerialWrite(join, Str(value))).raised
    {
      raised := xsig.SetSerial(join, Str(value));
    }
  }

  /** Once an entry has raised, the later entries change nothing. */
  lemma {:induction false} JoinChangeRaiseFinal(fromHub: seq<FromHubEntry>, key: string, value: string, k: nat)
    requires k <= |fromHub| && JoinChangeRun(fromHub[..k], key, value).raised
    ensures JoinChangeRun(fromHub, key, value) == JoinChangeRun(fromHub[..k], key, value)
    decreases |fromHub| - k
  {
    if k < |fromHub| {
      assert fromHub[..k + 1][..k] == fromHub[..k];
      JoinChangeRaiseFinal(fromHub, key, value, k + 1);
    } else {
      assert fromHub[..k] == fromHub;
    }
  }
}

=== FILE: light.dfy ===
/** The light platform (light.py): a light whose brightness lives in one
    analog join of the XSIG server, scaled by 257 between Home Assistant's
    0..255 brightness and the control system's 0..65535 level. */
module Light {
  import opened PyBuiltins
  import opened Codec
  import opened Stream
  import opened Xsig

  /** The brightness used by turn_on when none is given, unless configured. */
  const DefaultBrightness := 128

  /** int(level / 257): the quotient truncated toward zero. */
  function BrightnessOf(level: int): (b: int)
    ensures level >= 0 ==> b >= 0 && b * 257 <= level < (b + 1) * 257
    ensures level < 0 ==> b <= 0 && (b - 1) * 257 < level <= b * 257
  {
    if level >= 0 then level / 257 else -((-level) / 257)
  }

  /** A level the control system can send gives a brightness in 0..255. */
  lemma BrightnessRange(level: int)
    requires 0 <= level <= 65535
    ensures 0 <= BrightnessOf(level) <= 255
  {
  }

  /** bool(brightness): on exactly when the level is at least one step of 257
      away from zero. */
  lemma IsOnIff(level: int)
    ensures BrightnessOf(level) != 0 <==> level >= 257 || level <= -257
  {
  }

  /** The level turn_on sends: the requested brightness times 257, or the
      default brightness times 257; reading it back gives that brightness. */
  function TurnOnLevel(brightness: Option<int>, default: int): (level: int)
    ensures BrightnessOf(level) == if brightness.Some? then brightness.value else default
    ensures brightness.None? && default == DefaultBrightness ==> level == 32896
  {
    if brightness.Some? then brightness.value * 257 else default * 257
  }

  /** A brightness in 0..255 sent by turn_on arrives as one analog frame
      that the server reads as the same join and level, and that level reads
      back as the same brightness. */
  lemma TurnOnReadsBack(conn: Connection, join: int, b: int)
    requires 1 <= join <= 1024 && 0 <= b <= 255
    ensures var t := Transmit(Some(conn), AnalogWrite(join, TurnOnLevel(Some(b), DefaultBrightness)));
      && |t.writes| == 1
      && NextStep(t.writes[0].bytes, 0) == Decoded(AnalogChanged(join, b * 257), |t.writes[0].bytes|)
      && BrightnessOf(b * 257) == b
  {
    TransmitReadsBack(conn, AnalogWrite(join, b * 257));
  }

  /** A configured default of 256 or more overflows the 16-bit level: the
      control system receives the level modulo 65536, which reads back as a
      brightness other than the default. */
  lemma OversizedDefaultWraps(join: int, default: int)
    requires 1 <= join <= 1024 && default >= 256
    ensures var f := EncodeAnalog(join, TurnOnLevel(None, default)).bytes;
      && AnalogValue(f[0], f[2], f[3]) == (default * 257) % 65536
      && BrightnessOf(AnalogValue(f[0], f[2], f[3])) == (default * 257) % 65536 / 257
      && (default == 256 ==> BrightnessOf(AnalogValue(f[0], f[2], f[3])) == 0)
  {
    AnalogWraps(join, default * 257);
    WrappedDefault(default);
  }

  /** The level a default of 256 or more sends, and the brightness it reads
      back as. */
  lemma WrappedDefault(default: int)
    requires default >= 256
    ensures var wrapped := (default * 257) % 65536;
      && BrightnessOf(wrapped) == wrapped / 257
      && (default == 256 ==> wrapped == 256 && BrightnessOf(wrapped) == 0)
  {
    if default == 256 {
      assert default * 257 == 65792;
    }
  }

  class CrestronLight {
    const hub: CrestronXsig
    const brightnessJoin: int
    const defaultBrightness: int

    /** The configured join, and the configured default brightness or 128. */
    constructor (hub: CrestronXsig, brightnessJoin: int, defaultBrightness: Option<int>)
      ensures this.hub == hub && this.brightnessJoin == brightnessJoin
      ensures this.defaultBrightness == if defaultBrightness.Some? then defaultBrightness.value else DefaultBrightness
    {
      this.hub := hub;
      this.brightnessJoin := brightnessJoin;
      this.defaultBrightness := if defaultBrightness.Some? then defaultBrightness.value else DefaultBrightness;
    }

    /** available: whether the control system is connected. */
    function Available(): (r: bool)
      reads hub
      ensures r <==> hub.available
    {
      hub.IsAvailable()
    }

    /** brightness: the stored level scaled down by 257; 0 for a join never
        received. */
    function Brightness(): (b: int)
      reads hub
      ensures brightnessJoin !in hub.analog ==> b == 0
      ensures hub.Valid() ==> 0 <= b <= 255 && b * 257 <= hub.GetAnalog(brightnessJoin) < (b + 1) * 257
    {
      BrightnessOf(hub.GetAnalog(brightnessJoin))
    }

    /** is_on: the brightness is nonzero, that is the level is at least 257. */
    function IsOn(): (r: bool)
      reads hub
      ensures hub.Valid() ==> (r <==> hub.GetAnalog(brightnessJoin) >= 257)
      ensures brightnessJoin !in hub.analog ==> !r
    {
      IsOnIff(hub.GetAnalog(brightnessJoin));
      Brightness() != 0
    }

    /** async_turn_on: set_analog with the requested or default brightness
        times 257. */
    method TurnOn(brightness: Option<int>) returns (raised: bool)
      modifies hub`outbox
      ensures hub.outbox == old(hub.outbox)
        + Transmit(hub.writer, AnalogWrite(brightnessJoin, TurnOnLevel(brightness, defaultBrightness))).writes
      ensures raised == Transmit(hub.writer, AnalogWrite(brightnessJoin, TurnOnLevel(brightness, defaultBrightness))).raised
    {
      if brightness.Some? {
        raised := hub.SetAnalog(brightnessJoin, brightness.value * 257);
      } else {
        raised := hub.SetAnalog(brightnessJoin, defaultBrightness * 257);
      }
    }

    /** async_turn_off: set_analog with level 0, which reads back as off. */
    method TurnOff() returns (raised: bool)
      modifies hub`outbox
      ensures hub.outbox == old(hub.outbox) + Transmit(hub.writer, AnalogWrite(brightnessJoin, 0)).writes
      ensures raised == Transmit(hub.writer, AnalogWrite(brightnessJoin, 0)).raised
    {
      raised := hub.SetAnalog(brightnessJoin, 0);
    }
  }
}

=== FILE: python.dfy ===
/** The two Python built-in conversions the integration relies on, str() and
    int(): str() of an integer builds the join keys and the notified values,
    int() of a string reads a join number back out of a configured key, and
    both coerce rendered template results. */
module PyBuiltins {

  datatype Option<T> = None | Some(value: T)

  predicate IsDigit(c: char) { '0' <= c <= '9' }

  predicate AllDigits(s: string) { forall i :: 0 <= i < |s| ==> IsDigit(s[i]) }

  function DigitChar(d: nat): (c: char)
    requires d < 10
    ensures IsDigit(c) && c as int - '0' as int == d
  {
    ('0' as int + d) as char
  }

  function DigitValue(c: char): nat
    requires IsDigit(c)
  {
    c as int - '0' as int
  }

  /** str(n) for a non-negative int: its decimal digits, no leading zero. */
  function NatToStr(n: nat): (s: string)
    ensures |s| >= 1 && AllDigits(s)
    ensures s[0] == '0' <==> n == 0
    decreases n
  {
    if n < 10 then [DigitChar(n)] else NatToStr(n / 10) + [DigitChar(n % 10)]
  }

  /** str(i) for any int: a minus sign before the digits of a negative number. */
  function IntToStr(i: int): (s: string)
    ensures |s| >= 1
    ensures (s[0] == '-') <==> i < 0
  {
    if i < 0 then "-" + NatToStr(-i) else NatToStr(i)
  }

  /** The number a non-empty string of decimal digits denotes (leading zeros allowed). */
  function DigitsValue(s: string): nat
    requires AllDigits(s)
  {
    if |s| == 0 then 0 else DigitsValue(s[..|s| - 1]) * 10 + DigitValue(s[|s| - 1])
  }

  /** int(s) for a string: an optional sign followed by at least one decimal
      digit; anything else is the ValueError case, None. */
  function ParseInt(s: string): (r: Option<int>)
    ensures r.Some? ==> |s| >= 1
    ensures r.Some? && r.value < 0 ==> s[0] == '-'
  {
    if |s| >= 2 && (s[0] == '-' || s[0] == '+') && AllDigits(s[1..]) then
      Some(if s[0] == '-' then -(DigitsValue(s[1..]) as int) else DigitsValue(s[1..]) as int)
    else if |s| >= 1 && AllDigits(s) then
      Some(DigitsValue(s))
    else
      None
  }

  lemma {:induction false} NatToStrValue(n: nat)
    ensures DigitsValue(NatToStr(n)) == n
    decreases n
  {
    if n >= 10 {
      NatToStrValue(n / 10);
      var s := NatToStr(n);
      assert s[..|s| - 1] == NatToStr(n / 10);
    }
  }

  /** int(str(i)) == i for every int. */
  lemma IntToStrRoundTrip(i: int)
    ensures ParseInt(IntToStr(i)) == Some(i)
  {
    if i < 0 {
      NegativeToStrRoundTrip(i);
    } else {
      NatToStrValue(i);
    }
  }

  lemma NegativeToStrRoundTrip(i: int)
    requires i < 0
    ensures ParseInt(IntToStr(i)) == Some(i)
  {
    var digits := NatToStr(-i);
    NatToStrValue(-i);
    assert IntToStr(i) == "-" + digits;
    assert IntToStr(i)[1..] == digits;
  }

  /** Distinct numbers have distinct decimal forms. */
  lemma IntToStrInjective(i: int, j: int)
    ensures IntToStr(i) == IntToStr(j) ==> i == j
  {
    IntToStrRoundTrip(i);
    IntToStrRoundTrip(j);
  }

  /** The values a rendered template or a service field can hold. */
  datatype PyValue = PyStr(s: string) | PyBool(b: bool) | PyInt(i: int) | PyNone

  /** str(v). */
  function Str(v: PyValue): (r: string)
    ensures v.PyStr? ==> r == v.s
    ensures v.PyInt? ==> ParseInt(r) == Some(v.i)
    ensures v.PyBool? ==> r == (if v.b then "True" else "False")
    ensures v.PyNone? ==> r == "None"
  {
    match v
    case PyStr(s) => s
    case PyBool(b) => if b then "True" else "False"
    case PyInt(i) => IntToStrRoundTrip(i); IntToStr(i)
    case PyNone => "None"
  }

  /** int(v): a string is parsed, a bool is 0 or 1, an int is itself; None
      (TypeError) and an unparsable string (ValueError) give None. */
  function ToInt(v: PyValue): (r: Option<int>)
    ensures v.PyNone? ==> r.None?
    ensures v.PyBool? ==> r == Some(if v.b then 1 else 0)
    ensures v.PyInt? ==> r == Some(v.i)
  {
    match v
    case PyStr(s) => ParseInt(s)
    case PyBool(b) => Some(if b then 1 else 0)
    case PyInt(i) => Some(i)
    case PyNone => None
  }
}

=== FILE: stream.dfy ===
/** One pass of handle_connection's read loop (crestron.py:73-135) as a pure
    function of the bytes the peer sends, and the sequence of join events a
    whole byte stream yields.

    The reader is the byte sequence `input` and a position in it; reader.read(n)
    returns the next n bytes, fewer only when the stream ends (a peer that
    delivers a frame in several pieces is not modelled). */
module Stream {
  import opened PyBuiltins
  import opened Codec

  function Min(a: int, b: int): int { if a <= b then a else b }

  /** reader.read(n) at position i. */
  function Read(input: seq<byte>, i: nat, n: nat): (r: seq<byte>)
    requires i <= |input|
    ensures |r| == Min(n, |input| - i)
    ensures r == input[i..i + |r|]
  {
    input[i..Min(i + n, |input|)]
  }

  /** What one decoded frame means. */
  datatype Event =
    | DigitalChanged(join: int, value: bool)
    | AnalogChanged(join: int, level: int)
    | SerialChanged(join: int, text: string)
    | SyncRequested

  /** The outcome of one pass of the read loop. */
  datatype Step =
    | Decoded(event: Event, next: nat)  // a frame was consumed up to `next`
    | Skipped(next: nat)                // bytes matching no frame class were consumed
    | Closed                            // read(1) returned nothing: the peer closed
    | Fault                             // IndexError, struct.error or UnicodeDecodeError

  /** `lead and data[1] & 0x80 == 0`, evaluated left to right: data[1] is
      only looked at when `lead` holds, and is an IndexError (None) when the
      second read came back empty. */
  function HeaderTest(lead: bool, data: seq<byte>): Option<bool>
    requires |data| >= 1
  {
    if !lead then Some(false)
    else if |data| < 2 then None
    else Some(TopBitClear(data[1]))
  }

  /** One pass of the loop body starting at position i. */
  function NextStep(input: seq<byte>, i: nat): (s: Step)
    requires i <= |input|
    ensures s.Closed? <==> i == |input|
    ensures s.Decoded? ==> i < s.next <= |input|
    ensures s.Skipped? ==> i < s.next <= |input|
  {
    if i == |input| then Closed
    else
      var b0 := input[i];
      if b0 == SyncAllRequest then Decoded(SyncRequested, i + 1)
      else
        var data := [b0] + Read(input, i + 1, 1);
        match HeaderTest(DigitalLead(b0), data)
        case None => Fault
        case Some(true) => Decoded(DigitalChanged(DigitalJoin(b0, data[1]), DigitalValue(b0)), i + 2)
        case Some(false) =>
          match HeaderTest(AnalogLead(b0), data)
          case None => Fault
          case Some(true) =>
            var rest := Read(input, i + 2, 2);
            if |rest| < 2 then Fault
            else Decoded(AnalogChanged(WideJoin(b0, data[1]), AnalogValue(b0, rest[0], rest[1])), i + 4)
          case Some(false) =>
            match HeaderTest(SerialLead(b0), data)
            case None => Fault
            case Some(true) =>
              var length := Read(input, i + 2, 1);
              if |length| < 1 then Fault
              else
                var payload := Read(input, i + 3, length[0] as int);
                var text := AsciiDecode(payload);
                if text.None? then Fault
                else Decoded(SerialChanged(WideJoin(b0, data[1]), text.value), i + 3 + |payload|)
            case Some(false) => Skipped(i + |data|)
  }

  datatype Ending = EndOfInput | ParseFault

  /** The events a stream yields from position i, and how the reading stops. */
  datatype Decoding = Decoding(events: seq<Event>, ending: Ending)

  /** The `while connected` loop of handle_connection run to its end over the
      bytes from position i. */
  function Frames(input: seq<byte>, i: nat): Decoding
    requires i <= |input|
    decreases |input| - i
  {
    match NextStep(input, i)
    case Closed => Decoding([], EndOfInput)
    case Fault => Decoding([], ParseFault)
    case Skipped(next) => Frames(input, next)
    case Decoded(e, next) =>
      var rest := Frames(input, next);
      Decoding([e] + rest.events, rest.ending)
  }

  /** Every step consumes at least one byte, so the loop never yields more
      events than there are bytes left. */
  lemma {:induction false} FramesBounded(input: seq<byte>, i: nat)
    requires i <= |input|
    ensures |Frames(input, i).events| <= |input| - i
    decreases |input| - i
  {
    match NextStep(input, i)
    case Closed =>
    case Fault =>
    case Skipped(next) => FramesBounded(input, next);
    case Decoded(e, next) => FramesBounded(input, next);
  }

  /** Taking one step keeps the decoded events split into those already
      taken and those still ahead. */
  lemma FramesStep(input: seq<byte>, i: nat, taken: seq<Event>)
    requires i <= |input|
    ensures match NextStep(input, i)
      case Closed => Frames(input, i) == Decoding([], EndOfInput)
      case Fault => Frames(input, i) == Decoding([], ParseFault)
      case Skipped(next) => Frames(input, i) == Frames(input, next)
      case Decoded(e, next) =>
        && taken + Frames(input, i).events == (taken + [e]) + Frames(input, next).events
        && Frames(input, i).ending == Frames(input, next).ending
  {
    match NextStep(input, i)
    case Closed =>
    case Fault =>
    case Skipped(next) =>
    case Decoded(e, next) =>
      assert taken + ([e] + Frames(input, next).events) == (taken + [e]) + Frames(input, next).events;
  }

  /** A decoded frame puts its event in front of the events from the next position. */
  lemma FramesDecoded(input: seq<byte>, i: nat, e: Event, next: nat)
    requires i <= |input| && NextStep(input, i) == Decoded(e, next)
    ensures Frames(input, i) == Decoding([e] + Frames(input, next).events, Frames(input, next).ending)
  {
  }

  /** The frame the control system sends for a serial join: the serial header,
      one length byte, then the payload (crestron.py:123-128). */
  function InboundSerial(join: int, payload: seq<byte>): seq<byte>
    requires 1 <= join <= 1024 && |payload| < 256
  {
    [0xC8 | JoinHigh(join), JoinLow(join), ByteOf(|payload|)] + payload
  }

  /** An event the control system can send, in the range its frame can carry. */
  predicate Sendable(e: Event)
  {
    match e
    case DigitalChanged(join, _) => 1 <= join <= 4096
    case AnalogChanged(join, level) => 1 <= join <= 1024 && 0 <= level <= 65535
    case SerialChanged(join, text) => 1 <= join <= 1024 && IsAscii(text) && |text| < 256
    case SyncRequested => true
  }

  /** The bytes of one sendable event: the same bit layout set_digital and
      set_analog use, the length-prefixed serial frame, or the sync byte. */
  function EventBytes(e: Event): seq<byte>
    requires Sendable(e)
  {
    match e
    case DigitalChanged(join, value) => EncodeDigital(join, value).bytes
    case AnalogChanged(join, level) => EncodeAnalog(join, level).bytes
    case SerialChanged(join, text) => InboundSerial(join, Utf8(text))
    case SyncRequested => [SyncAllRequest]
  }

  /** Every event of the sequence can be sent. */
  predicate AllSendable(es: seq<Event>)
  {
    es == [] || (Sendable(es[0]) && AllSendable(es[1..]))
  }

  function Wire(es: seq<Event>): seq<byte>
    requires AllSendable(es)
  {
    if es == [] then [] else EventBytes(es[0]) + Wire(es[1..])
  }

  // ------------------------------------------------------------ one frame

  /** A digital frame as set_digital builds it is read back as the same join
      and value, and exactly its two bytes are consumed. */
  lemma DigitalFrameStep(input: seq<byte>, i: nat, join: int, value: bool)
    requires 1 <= join <= 4096
    requires i + 2 <= |input| && input[i..i + 2] == EncodeDigital(join, value).bytes
    ensures NextStep(input, i) == Decoded(DigitalChanged(join, value), i + 2)
  {
    DigitalRoundTrip(join, value);
    var f := EncodeDigital(join, value).bytes;
    assert input[i] == f[0] && input[i + 1] == f[1];
    assert Read(input, i + 1, 1) == [f[1]];
  }

  /** An analog frame as set_analog builds it is read back as the same join
      and level, and exactly its four bytes are consumed. */
  lemma AnalogFrameStep(input: seq<byte>, i: nat, join: int, level: int)
    requires 1 <= join <= 1024 && 0 <= level <= 65535
    requires i + 4 <= |input| && input[i..i + 4] == EncodeAnalog(join, level).bytes
    ensures NextStep(input, i) == Decoded(AnalogChanged(join, level), i + 4)
  {
    AnalogRoundTrip(join, level);
    var f := EncodeAnalog(join, level).bytes;
    assert input[i] == f[0] && input[i + 1] == f[1] && input[i + 2] == f[2] && input[i + 3] == f[3];
    AnalogStep(input, i);
  }

  /** An analog header followed by two value bytes is read as one analog
      event, and its four bytes are consumed. */
  lemma AnalogStep(input: seq<byte>, i: nat)
    requires i + 4 <= |input| && IsAnalogHeader(input[i], input[i + 1])
    ensures NextStep(input, i)
      == Decoded(AnalogChanged(WideJoin(input[i], input[i + 1]), AnalogValue(input[i], input[i + 2], input[i + 3])), i + 4)
  {
    assert input[i] != SyncAllRequest && !DigitalLead(input[i]);
    assert Read(input, i + 1, 1) == [input[i + 1]];
    assert Read(input, i + 2, 2) == [input[i + 2], input[i + 3]];
  }

  /** The first two bytes of a serial frame for a join in 1..1024. */
  lemma SerialHeaderBytes(join: int)
    requires 1 <= join <= 1024
    ensures var b0, b1 := 0xC8 | JoinHigh(join), JoinLow(join);
      && b0 != SyncAllRequest && !DigitalLead(b0) && !AnalogLead(b0)
      && IsSerialHeader(b0, b1) && WideJoin(b0, b1) == join
  {
    var high, low := JoinHigh(join), JoinLow(join);
    JoinFields(join);
    SerialLeadBits(high);
    WideJoinArith(0xC8 | high, low);
  }

  /** A serial header followed by a length byte and an ASCII payload read
      back from position i + 3. */
  lemma SerialStep(input: seq<byte>, i: nat, payload: seq<byte>)
    requires i + 3 <= |input|
    requires var b0 := input[i];
      b0 != SyncAllRequest && !DigitalLead(b0) && !AnalogLead(b0) && IsSerialHeader(b0, input[i + 1])
    requires payload == Read(input, i + 3, input[i + 2] as int) && AsciiDecode(payload).Some?
    ensures NextStep(input, i)
      == Decoded(SerialChanged(WideJoin(input[i], input[i + 1]), AsciiDecode(payload).value), i + 3 + |payload|)
  {
    assert Read(input, i + 1, 1) == [input[i + 1]];
    assert Read(input, i + 2, 1) == [input[i + 2]];
  }

  lemma InboundSerialBytes(input: seq<byte>, i: nat, join: int, payload: seq<byte>)
    requires 1 <= join <= 1024 && |payload| < 256
    requires var f := InboundSerial(join, payload);
      i + |f| <= |input| && input[i..i + |f|] == f
    ensures input[i] == 0xC8 | JoinHigh(join) && input[i + 1] == JoinLow(join)
    ensures Read(input, i + 3, input[i + 2] as int) == payload
  {
    var f := InboundSerial(join, payload);
    assert input[i] == f[0] && input[i + 1] == f[1] && input[i + 2] == f[2];
    assert input[i + 2] as int == |payload|;
    assert input[i + 3..i + 3 + |payload|] == f[3..] == payload;
  }

  /** A length-prefixed serial frame carrying ASCII text is read back as the
      same join and text, and exactly its bytes are consumed. */
  lemma SerialFrameStep(input: seq<byte>, i: nat, join: int, text: string)
    requires 1 <= join <= 1024 && IsAscii(text) && |text| < 256
    requires var f := InboundSerial(join, Utf8(text));
      i + |f| <= |input| && input[i..i + |f|] == f
    ensures NextStep(input, i) == Decoded(SerialChanged(join, text), i + 3 + |text|)
  {
    var payload := Utf8(text);
    SerialHeaderBytes(join);
    InboundSerialBytes(input, i, join, payload);
    AsciiRoundTrip(text);
    SerialStep(input, i, payload);
  }

  /** The sync-all request is the single byte 0xFB. */
  lemma SyncByteStep(input: seq<byte>, i: nat)
    requires i < |input| && input[i] == SyncAllRequest
    ensures NextStep(input, i) == Decoded(SyncRequested, i + 1)
  {
  }

  /** Whatever the bytes, a decoded event carries a join and a level in the
      ranges its frame can express. */
  lemma DecodedEventSendable(input: seq<byte>, i: nat)
    requires i <= |input|
    ensures NextStep(input, i).Decoded? ==> Sendable(NextStep(input, i).event)
  {
    if i + 1 < |input| && input[i] != SyncAllRequest {
      var b0, b1 := input[i], input[i + 1];
      assert Read(input, i + 1, 1) == [b1];
      if !TopBitClear(b1) {
      } else if DigitalLead(b0) {
        DecodedRanges(b0, b1, 0, 0);
      } else if AnalogLead(b0) {
        AnalogStepSendable(input, i);
      } else if SerialLead(b0) {
        SerialStepSendable(input, i);
      }
    }
  }

  lemma AnalogStepSendable(input: seq<byte>, i: nat)
    requires i + 1 < |input| && input[i] != SyncAllRequest
    requires TopBitClear(input[i + 1]) && !DigitalLead(input[i]) && AnalogLead(input[i])
    ensures NextStep(input, i).Decoded? ==> Sendable(NextStep(input, i).event)
  {
    assert Read(input, i + 1, 1) == [input[i + 1]];
    var rest := Read(input, i + 2, 2);
    if |rest| == 2 {
      DecodedRanges(input[i], input[i + 1], rest[0], rest[1]);
    }
  }

  lemma SerialStepSendable(input: seq<byte>, i: nat)
    requires i + 1 < |input| && input[i] != SyncAllRequest
    requires TopBitClear(input[i + 1]) && !DigitalLead(input[i]) && !AnalogLead(input[i]) && SerialLead(input[i])
    ensures NextStep(input, i).Decoded? ==> Sendable(NextStep(input, i).event)
  {
    assert Read(input, i + 1, 1) == [input[i + 1]];
    DecodedRanges(input[i], input[i + 1], 0, 0);
    var length := Read(input, i + 2, 1);
    if |length| == 1 {
      var payload := Read(input, i + 3, length[0] as int);
      var text := AsciiDecode(payload);
      if text.Some? {
        assert |Utf8(text.value)| == |payload| <= 255;
      }
    }
  }

  /** A byte pair that is not the sync byte and matches no frame class is
      consumed and yields nothing; nothing else is skipped two bytes at once. */
  lemma UnmatchedPairSkipped(input: seq<byte>, i: nat)
    requires i + 2 <= |input|
    ensures NextStep(input, i) == Skipped(i + 2) <==>
      && input[i] != SyncAllRequest
      && !IsDigitalHeader(input[i], input[i + 1])
      && !IsAnalogHeader(input[i], input[i + 1])
      && !IsSerialHeader(input[i], input[i + 1])
  {
    assert Read(input, i + 1, 1) == [input[i + 1]];
  }

  /** A frame whose header announces a digital, analog or serial frame but
      whose second byte never arrives ends the session with an IndexError. */
  lemma LoneHeaderByteFaults(input: seq<byte>)
    requires |input| >= 1
    requires var b0 := input[|input| - 1];
      b0 != SyncAllRequest && (DigitalLead(b0) || AnalogLead(b0) || SerialLead(b0))
    ensures NextStep(input, |input| - 1) == Fault
  {
    assert Read(input, |input|, 1) == [];
  }

  /** An analog frame cut short after its header ends the session: struct
      unpacking of fewer than four bytes fails. */
  lemma ShortAnalogFaults(join: int, level: int, k: nat)
    requires 1 <= join <= 1024 && 0 <= level <= 65535 && 2 <= k < 4
    ensures NextStep(EncodeAnalog(join, level).bytes[..k], 0) == Fault
  {
    AnalogRoundTrip(join, level);
    var input := EncodeAnalog(join, level).bytes[..k];
    assert Read(input, 1, 1) == [input[1]];
  }

  lemma TruncatedInboundBytes(join: int, payload: seq<byte>, k: nat)
    requires 1 <= join <= 1024 && |payload| < 256 && k < |payload|
    ensures var input := InboundSerial(join, payload)[..3 + k];
      && input[0] == 0xC8 | JoinHigh(join) && input[1] == JoinLow(join)
      && Read(input, 3, input[2] as int) == payload[..k]
  {
    var f := InboundSerial(join, payload);
    var input := f[..3 + k];
    assert input[2] as int == |payload| by {
      assert input[2] == f[2] == ByteOf(|payload|);
    }
    assert Read(input, 3, |payload|) == input[3..];
    assert input[3..] == payload[..k] by {
      assert f[3..] == payload;
    }
  }

  /** The first k bytes of an ASCII string's encoding are the encoding of its
      first k characters, and decode back to them. */
  lemma AsciiPrefix(text: string, k: nat)
    requires IsAscii(text) && k <= |text|
    ensures Utf8(text)[..k] == Utf8(text[..k])
    ensures AsciiDecode(Utf8(text)[..k]) == Some(text[..k])
  {
    var p := text[..k];
    assert IsAscii(p) by {
      forall i | 0 <= i < k ensures p[i] as int < 0x80 { assert p[i] == text[i]; }
    }
    Utf8OfAscii(text);
    Utf8OfAscii(p);
    var b := Utf8(text);
    forall i | 0 <= i < k ensures b[..k][i] == Utf8(p)[i] {
      assert p[i] == text[i];
    }
    assert b[..k] == Utf8(p);
    AsciiRoundTrip(p);
  }

  /** The first step over a serial frame cut short after k payload bytes. */
  lemma SerialCutStep(join: int, text: string, k: nat)
    requires 1 <= join <= 1024 && IsAscii(text) && |text| < 256 && k < |text|
    ensures var input := InboundSerial(join, Utf8(text))[..3 + k];
      NextStep(input, 0) == Decoded(SerialChanged(join, text[..k]), 3 + k)
  {
    var payload := Utf8(text);
    var input := InboundSerial(join, payload)[..3 + k];
    TruncatedInboundBytes(join, payload, k);
    AsciiPrefix(text, k);
    SerialPrefixStep(input, join, payload[..k], text[..k]);
  }

  /** A serial header for join whose payload decodes to `text`. */
  lemma SerialPrefixStep(input: seq<byte>, join: int, payload: seq<byte>, text: string)
    requires 1 <= join <= 1024 && 3 <= |input|
    requires input[0] == 0xC8 | JoinHigh(join) && input[1] == JoinLow(join)
    requires payload == Read(input, 3, input[2] as int) && AsciiDecode(payload) == Some(text)
    ensures NextStep(input, 0) == Decoded(SerialChanged(join, text), 3 + |text|)
  {
    SerialHeaderStep(input, 0, join, payload);
  }

  /** A serial payload holding a byte of 0x80 or above makes decode("ascii")
      raise, and the session ends with an error. */
  lemma NonAsciiSerialFaults(input: seq<byte>, i: nat, join: int, k: nat)
    requires 1 <= join <= 1024 && i + 3 <= |input|
    requires input[i] == 0xC8 | JoinHigh(join) && input[i + 1] == JoinLow(join)
    requires k < |Read(input, i + 3, input[i + 2] as int)| && Read(input, i + 3, input[i + 2] as int)[k] >= 0x80
    ensures NextStep(input, i) == Fault
  {
    SerialHeaderBytes(join);
    assert Read(input, i + 1, 1) == [input[i + 1]];
    assert Read(input, i + 2, 1) == [input[i + 2]];
  }

  /** A serial header for join, then whatever payload the length byte reads. */
  lemma SerialHeaderStep(input: seq<byte>, i: nat, join: int, payload: seq<byte>)
    requires 1 <= join <= 1024 && i + 3 <= |input|
    requires input[i] == 0xC8 | JoinHigh(join) && input[i + 1] == JoinLow(join)
    requires payload == Read(input, i + 3, input[i + 2] as int) && AsciiDecode(payload).Some?
    ensures NextStep(input, i) == Decoded(SerialChanged(join, AsciiDecode(payload).value), i + 3 + |payload|)
  {
    SerialHeaderBytes(join);
    SerialStep(input, i, payload);
  }

  /** A serial payload cut short by the end of the stream is still delivered,
      truncated to the bytes that arrived, and the session then ends normally. */
  lemma SerialCutShort(join: int, text: string, k: nat)
    requires 1 <= join <= 1024 && IsAscii(text) && |text| < 256 && k < |text|
    ensures Frames(InboundSerial(join, Utf8(text))[..3 + k], 0)
      == Decoding([SerialChanged(join, text[..k])], EndOfInput)
  {
    var input := InboundSerial(join, Utf8(text))[..3 + k];
    SerialCutStep(join, text, k);
    FramesDecoded(input, 0, SerialChanged(join, text[..k]), 3 + k);
    assert Frames(input, 3 + k) == Decoding([], EndOfInput);
  }

  // ------------------------------------------------------------ whole streams

  lemma EventStep(input: seq<byte>, i: nat, e: Event)
    requires Sendable(e)
    requires i + |EventBytes(e)| <= |input| && input[i..i + |EventBytes(e)|] == EventBytes(e)
    ensures NextStep(input, i) == Decoded(e, i + |EventBytes(e)|)
  {
    match e
    case DigitalChanged(join, value) => DigitalFrameStep(input, i, join, value);
    case AnalogChanged(join, level) => AnalogFrameStep(input, i, join, level);
    case SerialChanged(join, text) => SerialFrameStep(input, i, join, text);
    case SyncRequested => SyncByteStep(input, i);
  }

  lemma WireCons(p: seq<byte>, es: seq<Event>)
    requires |es| > 0 && AllSendable(es)
    ensures p + Wire(es) == (p + EventBytes(es[0])) + Wire(es[1..])
  {
  }

  /** An event's frame, wherever it sits in a stream, decodes to that event. */
  lemma EventStepAt(p: seq<byte>, e: Event, rest: seq<byte>)
    requires Sendable(e)
    ensures NextStep((p + EventBytes(e)) + rest, |p|) == Decoded(e, |p + EventBytes(e)|)
  {
    var f := EventBytes(e);
    var input := (p + f) + rest;
    assert input[|p|..|p| + |f|] == f;
    EventStep(input, |p|, e);
  }

  lemma {:induction false} WireDecodesAfter(p: seq<byte>, es: seq<Event>)
    requires AllSendable(es)
    ensures Frames(p + Wire(es), |p|) == Decoding(es, EndOfInput)
    decreases |es|
  {
    if es == [] {
      assert p + Wire(es) == p;
      FramesStep(p, |p|, []);
    } else {
      WireDecodesAfter(p + EventBytes(es[0]), es[1..]);
      WireDecodesCons(p, es);
    }
  }

  /** The step of WireDecodesAfter: the first frame's event goes in front of
      the events the rest of the wire decodes to. */
  lemma WireDecodesCons(p: seq<byte>, es: seq<Event>)
    requires es != [] && AllSendable(es)
    requires var q := p + EventBytes(es[0]);
      Frames(q + Wire(es[1..]), |q|) == Decoding(es[1..], EndOfInput)
    ensures Frames(p + Wire(es), |p|) == Decoding(es, EndOfInput)
  {
    WireCons(p, es);
    FrameThenRest(p, es[0], Wire(es[1..]), es[1..]);
    assert es == [es[0]] + es[1..];
  }

  /** An event's frame followed by bytes that decode to `tail` decodes to the
      event and then `tail`. */
  lemma FrameThenRest(p: seq<byte>, e: Event, rest: seq<byte>, tail: seq<Event>)
    requires Sendable(e)
    requires Frames((p + EventBytes(e)) + rest, |p + EventBytes(e)|) == Decoding(tail, EndOfInput)
    ensures Frames((p + EventBytes(e)) + rest, |p|) == Decoding([e] + tail, EndOfInput)
  {
    EventStepAt(p, e, rest);
    FramesDecoded((p + EventBytes(e)) + rest, |p|, e, |p + EventBytes(e)|);
  }

  /** Reading a stream made of well-formed frames yields exactly the events
      they carry, in order, and ends when the peer closes. */
  lemma WireDecodes(es: seq<Event>)
    requires AllSendable(es)
    ensures Frames(Wire(es), 0) == Decoding(es, EndOfInput)
  {
    WireDecodesAfter([], es);
    assert [] + Wire(es) == Wire(es);
  }
}

=== FILE: xsig.dfy ===
/** The XSIG server object of crestron.py: the join store filled by inbound
    frames, the registered callbacks, the availability flag, the current
    writer, and what the object sends to the control system and to its
    callbacks.

    External objects (callback coroutines, the sync-all-joins handler, the
    StreamWriter of a connection) are represented by identities. Which
    awaited callbacks raise is a parameter: a set of (round, callback) pairs,
    where `round` is the position of the invocation round in the call log. */
module Xsig {
  import opened PyBuiltins
  import opened Codec
  import opened Stream

  type Callback = nat
  type Handler = nat
  type Connection = nat

  /** One writer.write(bytes) on the writer of connection `conn`. */
  datatype Write = Write(conn: Connection, bytes: seq<byte>)

  /** One invocation round: a fan-out of (key, value) to the callbacks in the
      order they were awaited, or a call of the sync-all-joins handler;
      `raised` says the round ended with an exception that propagates (from
      the last callback reached, or from the handler when it is not a
      ValueError). */
  datatype Call =
    | Fanout(key: string, value: string, reached: seq<Callback>, raised: bool)
    | SyncAll(handler: Handler, raised: bool)

  datatype SessionEnd = PeerClosed | Aborted

  // ------------------------------------------------------------ the join store

  datatype Store = Store(digital: map<int, bool>, analog: map<int, int>, serial: map<int, string>)

  /** Joins and values stay within what an inbound frame can carry. */
  predicate StoreValid(st: Store)
  {
    && (forall j :: j in st.digital ==> 1 <= j <= 4096)
    && (forall j :: j in st.analog ==> 1 <= j <= 1024 && 0 <= st.analog[j] <= 65535)
    && (forall j :: j in st.serial ==> 1 <= j <= 1024 && IsAscii(st.serial[j]) && |st.serial[j]| < 256)
  }

  /** The store after one decoded frame. */
  function Apply(st: Store, e: Event): Store
  {
    match e
    case DigitalChanged(join, value) => st.(digital := st.digital[join := value])
    case AnalogChanged(join, level) => st.(analog := st.analog[join := level])
    case SerialChanged(join, text) => st.(serial := st.serial[join := text])
    case SyncRequested => st
  }

  function ApplyAll(st: Store, es: seq<Event>): Store
  {
    if es == [] then st else Apply(ApplyAll(st, es[..|es| - 1]), es[|es| - 1])
  }

  /** The value of the last event for a join in a sequence of events, if any. */
  function LastDigital(es: seq<Event>, join: int): Option<bool>
  {
    if es == [] then None
    else
      var e := es[|es| - 1];
      if e.DigitalChanged? && e.join == join then Some(e.value) else LastDigital(es[..|es| - 1], join)
  }

  function LastAnalog(es: seq<Event>, join: int): Option<int>
  {
    if es == [] then None
    else
      var e := es[|es| - 1];
      if e.AnalogChanged? && e.join == join then Some(e.level) else LastAnalog(es[..|es| - 1], join)
  }

  function LastSerial(es: seq<Event>, join: int): Option<string>
  {
    if es == [] then None
    else
      var e := es[|es| - 1];
      if e.SerialChanged? && e.join == join then Some(e.text) else LastSerial(es[..|es| - 1], join)
  }

  /** The store holds, for every join, the value of the most recent frame for
      that join; a join no frame mentioned keeps its earlier entry or absence. */
  lemma {:induction false} StoreHoldsLatest(st: Store, es: seq<Event>, join: int)
    ensures var after := ApplyAll(st, es);
      && (LastDigital(es, join).Some? ==> join in after.digital && after.digital[join] == LastDigital(es, join).value)
      && (LastDigital(es, join).None? ==> (join in after.digital <==> join in st.digital)
                                          && (join in st.digital ==> after.digital[join] == st.digital[join]))
      && (LastAnalog(es, join).Some? ==> join in after.analog && after.analog[join] == LastAnalog(es, join).value)
      && (LastAnalog(es, join).None? ==> (join in after.analog <==> join in st.analog)
                                         && (join in st.analog ==> after.analog[join] == st.analog[join]))
      && (LastSerial(es, join).Some? ==> join in after.serial && after.serial[join] == LastSerial(es, join).value)
      && (LastSerial(es, join).None? ==> (join in after.serial <==> join in st.serial)
                                         && (join in st.serial ==> after.serial[join] == st.serial[join]))
    decreases |es|
  {
    if es != [] {
      StoreHoldsLatest(st, es[..|es| - 1], join);
    }
  }

  /** Applying decoded events keeps the store within the frames' ranges. */
  lemma ApplyKeepsValid(st: Store, e: Event)
    requires StoreValid(st) && Sendable(e)
    ensures StoreValid(Apply(st, e))
  {
    if e.SerialChanged? {
      assert |Utf8(e.text)| == |e.text|;
    }
  }

  // ------------------------------------------------------------ notifications

  /** What the callbacks observe: a (key, value) notification or a call of the
      sync-all-joins handler. */
  datatype Signal = Notified(key: string, value: string) | SyncInvoked

  function SignalOf(c: Call): Signal
  {
    match c
    case Fanout(key, value, _, _) => Notified(key, value)
    case SyncAll(_, _) => SyncInvoked
  }

  function Signals(cs: seq<Call>): seq<Signal>
  {
    if cs == [] then [] else Signals(cs[..|cs| - 1]) + [SignalOf(cs[|cs| - 1])]
  }

  /** The notification for a decoded frame: "d", "a" or "s" followed by the
      join number; the value "1"/"0", the decimal level, or the payload. */
  function Notice(e: Event): (s: Signal)
    requires !e.SyncRequested?
    ensures s.Notified? && |s.key| >= 2
  {
    match e
    case DigitalChanged(join, value) => Notified("d" + IntToStr(join), if value then "1" else "0")
    case AnalogChanged(join, level) => Notified("a" + IntToStr(join), IntToStr(level))
    case SerialChanged(join, text) => Notified("s" + IntToStr(join), text)
  }

  /** What a session's callbacks observe for a sequence of decoded frames: a
      notification per data frame, and a handler call per sync request when
      a handler is registered. */
  function EventSignals(es: seq<Event>, registered: bool): seq<Signal>
  {
    if es == [] then []
    else
      var e := es[|es| - 1];
      EventSignals(es[..|es| - 1], registered)
        + (if !e.SyncRequested? then [Notice(e)] else if registered then [SyncInvoked] else [])
  }

  /** A notification key names the join type and the join number exactly:
      two frames notify under the same key only when they update the same join. */
  lemma NoticeKeyIdentifiesJoin(e1: Event, e2: Event)
    requires !e1.SyncRequested? && !e2.SyncRequested?
    ensures Notice(e1).key == Notice(e2).key <==>
      (e1.DigitalChanged? == e2.DigitalChanged? && e1.AnalogChanged? == e2.AnalogChanged? && e1.join == e2.join)
  {
    var k1, k2 := Notice(e1).key, Notice(e2).key;
    if k1 == k2 {
      assert k1[0] == k2[0];
      assert k1[1..] == IntToStr(e1.join) && k2[1..] == IntToStr(e2.join);
      IntToStrInjective(e1.join, e2.join);
    }
  }

  /** The (round, callback) pairs where the awaited callback raises. */
  type Faults = set<(nat, Callback)>

  /** The rounds where the sync-all-joins handler raises an exception other
      than ValueError; a ValueError is swallowed and so acts like a return. */
  type SyncFaults = set<nat>

  /** No callback reached in round `round` raised. */
  predicate Passed(reached: seq<Callback>, round: nat, faults: Faults)
  {
    forall k :: 0 <= k < |reached| ==> (round, reached[k]) !in faults
  }

  /** A fan-out stopped at the first callback that raised: every callback
      before the last one reached returned normally. */
  predicate StoppedAtFault(reached: seq<Callback>, round: nat, faults: Faults)
  {
    forall k :: 0 <= k < |reached| - 1 ==> (round, reached[k]) !in faults
  }

  /** Fan-out round `round` ended as the callback faults dictate: it stopped
      at the first callback that raised, and raised exactly when one did. */
  predicate FanoutHonest(c: Call, round: nat, faults: Faults)
  {
    && c.Fanout?
    && StoppedAtFault(c.reached, round, faults)
    && (c.raised <==> !Passed(c.reached, round, faults))
  }

  /** Round `round` of the call log ended as the fault sets dictate; a call of
      the sync-all-joins handler raised exactly when its round is in `sync`. */
  predicate Honest(c: Call, round: nat, faults: Faults, sync: SyncFaults)
  {
    match c
    case Fanout(_, _, _, _) => FanoutHonest(c, round, faults)
    case SyncAll(_, raised) => raised <==> round in sync
  }

  /** Every round of the call log from position `from` on is honest. */
  predicate HonestFrom(cs: seq<Call>, from: nat, faults: Faults, sync: SyncFaults)
    decreases |cs|
  {
    |cs| <= from || (Honest(cs[|cs| - 1], |cs| - 1, faults, sync) && HonestFrom(cs[..|cs| - 1], from, faults, sync))
  }

  /** The rounds from `from` on are honest exactly when each of them is. */
  lemma {:induction false} HonestFromIff(cs: seq<Call>, from: nat, faults: Faults, sync: SyncFaults)
    ensures HonestFrom(cs, from, faults, sync) <==> forall p :: from <= p < |cs| ==> Honest(cs[p], p, faults, sync)
    decreases |cs|
  {
    if |cs| > from {
      var front := cs[..|cs| - 1];
      HonestFromIff(front, from, faults, sync);
      assert forall p :: from <= p < |front| ==> front[p] == cs[p];
    }
  }

  /** Honest rounds appended after honest rounds. */
  lemma {:induction false} HonestExtend(cs: seq<Call>, added: seq<Call>, from: nat, faults: Faults, sync: SyncFaults)
    requires HonestFrom(cs, from, faults, sync) && HonestFrom(cs + added, |cs|, faults, sync)
    ensures HonestFrom(cs + added, from, faults, sync)
    decreases |added|
  {
    if added == [] {
      assert cs + added == cs;
    } else if |cs + added| > from {
      var all, front := cs + added, added[..|added| - 1];
      assert all[..|all| - 1] == cs + front;
      assert Honest(all[|all| - 1], |all| - 1, faults, sync) && HonestFrom(cs + front, |cs|, faults, sync);
      HonestExtend(cs, front, from, faults, sync);
    }
  }

  /** One honest round appended to the call log. */
  lemma HonestAppend(cs: seq<Call>, added: seq<Call>, faults: Faults, sync: SyncFaults)
    requires |added| <= 1
    requires added != [] ==> Honest(added[0], |cs|, faults, sync)
    ensures HonestFrom(cs + added, |cs|, faults, sync)
  {
    if added != [] {
      assert (cs + added)[..|cs|] == cs;
    }
  }

  /** Without faults no round raises: every callback returns and the handler
      never raises anything but a swallowed ValueError. */
  lemma NoFaultsNoRaise(cs: seq<Call>, from: nat)
    requires HonestFrom(cs, from, {}, {})
    ensures forall p :: from <= p < |cs| ==> !cs[p].raised
  {
    HonestFromIff(cs, from, {}, {});
    forall p | from <= p < |cs| ensures !cs[p].raised {
      if cs[p].Fanout? {
        assert Passed(cs[p].reached, p, {});
      }
    }
  }

  /** The rounds of a whole connection are honest when each part is; without
      faults neither the opening announcement nor any round of the session
      raised. */
  lemma ConnectionHonest(before: seq<Call>, opening: Call, session: seq<Call>, closing: Call,
                         faults: Faults, sync: SyncFaults)
    requires FanoutHonest(opening, |before|, faults)
    requires HonestFrom(before + [opening] + session, |before + [opening]|, faults, sync)
    requires FanoutHonest(closing, |before + [opening] + session|, faults)
    ensures HonestFrom(before + [opening] + session + [closing], |before|, faults, sync)
    ensures faults == {} && sync == {} ==> !([opening] + session)[|session|].raised && !opening.raised
  {
    var cs := before + [opening] + session;
    HonestAppend(before, [opening], faults, sync);
    HonestExtend(before + [opening], session, |before|, faults, sync);
    HonestAppend(cs, [closing], faults, sync);
    HonestExtend(cs, [closing], |before|, faults, sync);
    if faults == {} && sync == {} {
      NoFaultsNoRaise(cs + [closing], |before|);
      assert cs[|before|] == opening;
      assert cs[|before| + |session|] == ([opening] + session)[|session|];
    }
  }

  /** A fan-out awaited registered callbacks one at a time, each at most
      once, and all of them unless one raised. */
  predicate Complete(c: Call, cbs: set<Callback>)
  {
    c.Fanout? ==>
      && (forall k :: 0 <= k < |c.reached| ==> c.reached[k] in cbs)
      && (forall a, b :: 0 <= a < b < |c.reached| ==> c.reached[a] != c.reached[b])
      && (!c.raised ==> forall cb :: cb in cbs ==> cb in c.reached)
      && (c.raised ==> |c.reached| > 0)
  }

  predicate AllComplete(cs: seq<Call>, cbs: set<Callback>)
  {
    forall k :: 0 <= k < |cs| ==> Complete(cs[k], cbs)
  }

  /** Only the last round of a stretch of the call log may have raised. */
  predicate RaisedOnlyLast(cs: seq<Call>)
  {
    forall k :: 0 <= k < |cs| - 1 ==> !cs[k].raised
  }

  lemma LogConcat(a: seq<Call>, b: seq<Call>, cbs: set<Callback>)
    ensures AllComplete(a + b, cbs) <==> AllComplete(a, cbs) && AllComplete(b, cbs)
  {
    if AllComplete(a + b, cbs) {
      forall k | 0 <= k < |a| ensures Complete(a[k], cbs) { assert (a + b)[k] == a[k]; }
      forall k | 0 <= k < |b| ensures Complete(b[k], cbs) { assert (a + b)[|a| + k] == b[k]; }
    }
  }

  /** Appending the rounds of one frame to a session that has not raised. */
  lemma LogGrows(session: seq<Call>, added: seq<Call>, cbs: set<Callback>, ok: bool)
    requires AllComplete(session, cbs) && RaisedOnlyLast(session)
    requires !(session != [] && session[|session| - 1].raised)
    requires AllComplete(added, cbs) && |added| <= 1
    requires ok <==> added == [] || !added[0].raised
    ensures AllComplete(session + added, cbs) && RaisedOnlyLast(session + added)
    ensures !ok <==> session + added != [] && (session + added)[|session + added| - 1].raised
  {
    LogConcat(session, added, cbs);
  }

  lemma AppendAssoc<T>(x: seq<T>, y: seq<T>, z: seq<T>)
    ensures (x + y) + z == x + (y + z)
  {
  }

  lemma {:induction false} SignalsConcat(a: seq<Call>, b: seq<Call>)
    ensures Signals(a + b) == Signals(a) + Signals(b)
    decreases |b|
  {
    if b != [] {
      var c := b[|b| - 1];
      var front := b[..|b| - 1];
      assert a + b == (a + front) + [c];
      assert (a + b)[..|a + b| - 1] == a + front;
      SignalsConcat(a, front);
    } else {
      assert a + b == a;
    }
  }

  // ------------------------------------------------------------ outbound frames

  /** The argument of one set_digital, set_analog or set_serial call. */
  datatype JoinWrite =
    | DigitalWrite(join: int, value: bool)
    | AnalogWrite(join: int, level: int)
    | SerialWrite(join: int, text: string)

  /** The effect of one set_* call: the writes it made and whether
      struct.pack raised. */
  datatype Transmission = Transmission(writes: seq<Write>, raised: bool)

  function Frame(cmd: JoinWrite): Packed
  {
    match cmd
    case DigitalWrite(join, value) => EncodeDigital(join, value)
    case AnalogWrite(join, level) => EncodeAnalog(join, level)
    case SerialWrite(join, text) => EncodeSerial(join, text)
  }

  /** set_*: a serial string over 252 characters is dropped; without a writer
      nothing is sent; otherwise the packed frame goes to the writer. */
  function Transmit(writer: Option<Connection>, cmd: JoinWrite): Transmission
  {
    if cmd.SerialWrite? && |cmd.text| > MaxSerialLength then Transmission([], false)
    else if writer.None? then Transmission([], false)
    else
      match Frame(cmd)
      case PackError => Transmission([], true)
      case Packed(bytes) => Transmission([Write(writer.value, bytes)], false)
  }

  /** A set_* call writes at most one frame, only to the current writer, and
      raises exactly when it has a writer, the string is not too long, and the
      join is outside 1..32768. */
  lemma TransmitShape(writer: Option<Connection>, cmd: JoinWrite)
    ensures var t := Transmit(writer, cmd);
      && |t.writes| <= 1
      && (t.writes != [] ==> writer == Some(t.writes[0].conn) && Frame(cmd) == Packed(t.writes[0].bytes))
      && (t.raised ==> t.writes == [])
      && (t.raised <==> writer.Some? && !(cmd.SerialWrite? && |cmd.text| > MaxSerialLength)
                        && !(1 <= cmd.join <= 32768))
      && (t.writes == [] && !t.raised <==> writer.None? || (cmd.SerialWrite? && |cmd.text| > MaxSerialLength))
  {
    match cmd
    case DigitalWrite(join, value) => PackErrorIff(join, value, 0, "");
    case AnalogWrite(join, level) => PackErrorIff(join, false, level, "");
    case SerialWrite(join, text) => PackErrorIff(join, false, 0, text);
  }

  /** A digital or analog write the control system can represent arrives as
      one frame that the server's own parser reads back as the same join and
      value. */
  lemma TransmitReadsBack(conn: Connection, cmd: JoinWrite)
    requires cmd.DigitalWrite? ==> 1 <= cmd.join <= 4096
    requires cmd.AnalogWrite? ==> 1 <= cmd.join <= 1024 && 0 <= cmd.level <= 65535
    requires !cmd.SerialWrite?
    ensures var t := Transmit(Some(conn), cmd);
      && !t.raised && |t.writes| == 1 && t.writes[0].conn == conn
      && NextStep(t.writes[0].bytes, 0) == Decoded(
           if cmd.DigitalWrite? then DigitalChanged(cmd.join, cmd.value) else AnalogChanged(cmd.join, cmd.level),
           |t.writes[0].bytes|)
  {
    if cmd.DigitalWrite? {
      DigitalRoundTrip(cmd.join, cmd.value);
      DigitalFrameStep(EncodeDigital(cmd.join, cmd.value).bytes, 0, cmd.join, cmd.value);
    } else {
      AnalogRoundTrip(cmd.join, cmd.level);
      var f := EncodeAnalog(cmd.join, cmd.level).bytes;
      assert f[0..4] == f;
      AnalogFrameStep(f, 0, cmd.join, cmd.level);
    }
  }

  // ------------------------------------------------------------ the object

  class CrestronXsig {
    var digital: map<int, bool>
    var analog: map<int, int>
    var serial: map<int, string>
    var writer: Option<Connection>
    var callbacks: set<Callback>
    var available: bool
    var syncAllJoinsCallback: Option<Handler>
    /** Whether stop() reached server.close(). */
    var serverClosed: bool
    /** Every writer.write, in order. */
    var outbox: seq<Write>
    /** Every invocation round, in order. */
    var calls: seq<Call>
    /** The writers closed when their session ended. */
    var closedWriters: set<Connection>

    function Joins(): Store
      reads this
    {
      Store(digital, analog, serial)
    }

    ghost predicate Valid()
      reads this
    {
      StoreValid(Joins())
    }

    constructor ()
      ensures Valid()
      ensures digital == map[] && analog == map[] && serial == map[]
      ensures writer == None && callbacks == {} && !available && syncAllJoinsCallback == None
      ensures !serverClosed && outbox == [] && calls == [] && closedWriters == {}
    {
      digital, analog, serial := map[], map[], map[];
      writer := None;
      callbacks := {};
      available := false;
      syncAllJoinsCallback := None;
      serverClosed := false;
      outbox, calls, closedWriters := [], [], {};
    }

    method RegisterSyncAllJoinsCallback(handler: Handler)
      modifies this`syncAllJoinsCallback
      ensures syncAllJoinsCallback == Some(handler)
    {
      syncAllJoinsCallback := Some(handler);
    }

    /** Set semantics: registering a callback twice keeps one entry. */
    method RegisterCallback(cb: Callback)
      modifies this`callbacks
      ensures callbacks == old(callbacks) + {cb}
      ensures cb in old(callbacks) ==> callbacks == old(callbacks)
    {
      callbacks := callbacks + {cb};
    }

    /** discard(): removing a callback that is not registered changes nothing. */
    method RemoveCallback(cb: Callback)
      modifies this`callbacks
      ensures callbacks == old(callbacks) - {cb}
      ensures cb !in old(callbacks) ==> callbacks == old(callbacks)
    {
      callbacks := callbacks - {cb};
    }

    function IsAvailable(): (r: bool)
      reads this
      ensures r <==> available
    {
      available
    }

    /** get_analog never fails: 0 for a join never received. */
    function GetAnalog(join: int): (r: int)
      reads this
      ensures join !in analog ==> r == 0
      ensures join in analog ==> r == analog[join]
      ensures Valid() ==> 0 <= r <= 65535
    {
      if join in analog then analog[join] else 0
    }

    /** get_digital never fails: False for a join never received. */
    function GetDigital(join: int): (r: bool)
      reads this
      ensures join !in digital ==> !r
      ensures join in digital ==> r == digital[join]
    {
      if join in digital then digital[join] else false
    }

    /** get_serial never fails: "" for a join never received. */
    function GetSerial(join: int): (r: string)
      reads this
      ensures join !in serial ==> r == ""
      ensures join in serial ==> r == serial[join]
      ensures Valid() ==> IsAscii(r) && |r| < 256
    {
      if join in serial then serial[join] else ""
    }

    method SetDigital(join: int, value: bool) returns (raised: bool)
      modifies this`outbox
      ensures outbox == old(outbox) + Transmit(writer, DigitalWrite(join, value)).writes
      ensures raised == Transmit(writer, DigitalWrite(join, value)).raised
    {
      raised := false;
      if writer.Some? {
        match EncodeDigital(join, value)
        case PackError => raised := true;
        case Packed(bytes) => outbox := outbox + [Write(writer.value, bytes)];
      }
    }

    method SetAnalog(join: int, level: int) returns (raised: bool)
      modifies this`outbox
      ensures outbox == old(outbox) + Transmit(writer, AnalogWrite(join, level)).writes
      ensures raised == Transmit(writer, AnalogWrite(join, level)).raised
    {
      raised := false;
      if writer.Some? {
        match EncodeAnalog(join, level)
        case PackError => raised := true;
        case Packed(bytes) => outbox := outbox + [Write(writer.value, bytes)];
      }
    }

    method SetSerial(join: int, text: string) returns (raised: bool)
      modifies this`outbox
      ensures outbox == old(outbox) + Transmit(writer, SerialWrite(join, text)).writes
      ensures raised == Transmit(writer, SerialWrite(join, text)).raised
    {
      raised := false;
      if |text| > MaxSerialLength {
        return;
      } else if writer.Some? {
        match EncodeSerial(join, text)
        case PackError => raised := true;
        case Packed(bytes) => outbox := outbox + [Write(writer.value, bytes)];
      }
    }

    /** One of the three set_* calls, chosen by the kind of write. */
    method Send(cmd: JoinWrite) returns (raised: bool)
      modifies this`outbox
      ensures outbox == old(outbox) + Transmit(writer, cmd).writes
      ensures raised == Transmit(writer, cmd).raised
    {
      match cmd
      case DigitalWrite(join, value) => raised := SetDigital(join, value);
      case AnalogWrite(join, level) => raised := SetAnalog(join, level);
      case SerialWrite(join, text) => raised := SetSerial(join, text);
    }

    /** `for callback in self._callbacks: await callback(key, value)`: the
        callbacks are awaited in some order, until one raises. */
    method Broadcast(key: string, value: string, faults: Faults) returns (ok: bool, ghost round: Call)
      modifies this`calls
      ensures round.Fanout? && round == Fanout(key, value, round.reached, !ok)
      ensures calls == old(calls) + [round]
      ensures Complete(round, callbacks)
      ensures StoppedAtFault(round.reached, |old(calls)|, faults)
      ensures ok <==> Passed(round.reached, |old(calls)|, faults)
    {
      var index := |calls|;
      var remaining := callbacks;
      var reached := [];
      ok := true;
      while remaining != {} && ok
        invariant remaining <= callbacks
        invariant forall k :: 0 <= k < |reached| ==> reached[k] in callbacks && reached[k] !in remaining
        invariant forall cb :: cb in callbacks && cb !in remaining ==> cb in reached
        invariant forall a, b :: 0 <= a < b < |reached| ==> reached[a] != reached[b]
        invariant StoppedAtFault(reached, index, faults)
        invariant ok <==> Passed(reached, index, faults)
        decreases |remaining|
      {
        var cb :| cb in remaining;
        reached := reached + [cb];
        remaining := remaining - {cb};
        ok := (index, cb) !in faults;
      }
      round := Fanout(key, value, reached, !ok);
      calls := calls + [Fanout(key, value, reached, !ok)];
    }

    /** stop(): availability drops, every callback hears "available" "False",
        and only then is the server closed; a raising callback skips the close. */
    method Stop(faults: Faults) returns (ghost round: Call)
      modifies this`available, this`calls, this`serverClosed
      ensures !available
      ensures calls == old(calls) + [round]
      ensures SignalOf(round) == Notified("available", "False") && Complete(round, callbacks)
      ensures FanoutHonest(round, |old(calls)|, faults)
      ensures serverClosed == (old(serverClosed) || !round.raised)
    {
      available := false;
      var ok;
      ok, round := Broadcast("available", "False", faults);
      if ok {
        serverClosed := true;
      }
    }

    /** A fan-out as the rounds it appends to the call log. */
    method Notify(signal: Signal, faults: Faults) returns (ok: bool, ghost added: seq<Call>)
      requires signal.Notified?
      modifies this`calls
      ensures calls == old(calls) + added && |added| == 1
      ensures Signals(added) == [signal]
      ensures AllComplete(added, callbacks)
      ensures FanoutHonest(added[0], |old(calls)|, faults)
      ensures ok <==> !added[0].raised
    {
      ghost var round;
      ok, round := Broadcast(signal.key, signal.value, faults);
      added := [round];
      assert added[..0] == [];
    }

    /** `await self._sync_all_joins_callback()` when one is registered. */
    method RequestSync(sync: SyncFaults) returns (ok: bool, ghost added: seq<Call>)
      modifies this`calls
      ensures calls == old(calls) + added && |added| <= 1
      ensures Signals(added) == if syncAllJoinsCallback.Some? then [SyncInvoked] else []
      ensures AllComplete(added, callbacks)
      ensures added != [] ==> added[0].SyncAll? && (added[0].raised <==> |old(calls)| in sync)
      ensures ok <==> added == [] || !added[0].raised
    {
      ok := true;
      added := [];
      if syncAllJoinsCallback.Some? {
        ok := |calls| !in sync;
        calls := calls + [SyncAll(syncAllJoinsCallback.value, !ok)];
        added := [SyncAll(syncAllJoinsCallback.value, !ok)];
        assert added[..0] == [];
      }
    }

    /** The store update and notification for one decoded frame, or the call
        of the sync-all-joins handler for a sync request; `added` are the
        rounds it appended to the call log. */
    method Receive(e: Event, faults: Faults, sync: SyncFaults) returns (ok: bool, ghost added: seq<Call>)
      requires Valid() && Sendable(e)
      modifies this`digital, this`analog, this`serial, this`calls
      ensures Valid()
      ensures Joins() == Apply(old(Joins()), e)
      ensures calls == old(calls) + added && |added| <= 1
      ensures Signals(added) == EventSignals([e], syncAllJoinsCallback.Some?)
      ensures AllComplete(added, callbacks)
      ensures HonestFrom(calls, |old(calls)|, faults, sync)
      ensures ok <==> added == [] || !added[0].raised
    {
      ApplyKeepsValid(Joins(), e);
      ghost var log := calls;
      match e {
        case DigitalChanged(join, value) => digital := digital[join := value];
        case AnalogChanged(join, level) => analog := analog[join := level];
        case SerialChanged(join, text) => serial := serial[join := text];
        case SyncRequested =>
      }
      assert [e][..0] == [];
      if e.SyncRequested? {
        ok, added := RequestSync(sync);
      } else {
        ok, added := Notify(Notice(e), faults);
      }
      HonestAppend(log, added, faults, sync);
    }

    /** What a session has done so far, starting from store `start` and call
        log `before`: the store holds the effect of the frames taken, the
        call log grew by `session`, one signal per frame, and only the last
        round may have raised, exactly when `interrupted`. */
    ghost predicate Served(start: Store, before: seq<Call>, done: seq<Event>, session: seq<Call>, interrupted: bool,
                           faults: Faults, sync: SyncFaults)
      reads this
    {
      && Valid()
      && Joins() == ApplyAll(start, done)
      && calls == before + session
      && Signals(session) == EventSignals(done, syncAllJoinsCallback.Some?)
      && AllComplete(session, callbacks) && RaisedOnlyLast(session)
      && HonestFrom(calls, |before|, faults, sync)
      && (interrupted <==> session != [] && session[|session| - 1].raised)
    }

    /** The loop body for one decoded frame of a session not yet interrupted. */
    method Take(e: Event, faults: Faults, sync: SyncFaults, ghost start: Store, ghost before: seq<Call>,
                ghost done: seq<Event>, ghost session: seq<Call>)
      returns (fine: bool, ghost session': seq<Call>)
      requires Sendable(e) && Served(start, before, done, session, false, faults, sync)
      modifies this`digital, this`analog, this`serial, this`calls
      ensures Served(start, before, done + [e], session', !fine, faults, sync)
    {
      ghost var added;
      ghost var log := calls;
      fine, added := Receive(e, faults, sync);
      SessionStep(start, done, e, session, added, syncAllJoinsCallback.Some?);
      LogGrows(session, added, callbacks, fine);
      HonestExtend(log, added, |before|, faults, sync);
      AppendAssoc(before, session, added);
      session' := session + added;
    }

    /** The `while connected` loop of handle_connection: frames are decoded
        in order until the peer closes, a frame cannot be decoded, or a
        callback or the sync handler raises. `done` are the frames whose
        effects took place, `session` the rounds appended to the call log,
        and `interrupted` says the last of them raised. */
    method Serve(input: seq<byte>, faults: Faults, sync: SyncFaults)
      returns (ending: SessionEnd, ghost done: seq<Event>, ghost interrupted: bool, ghost session: seq<Call>)
      requires Valid()
      modifies this`digital, this`analog, this`serial, this`calls
      ensures Valid()
      ensures done <= Frames(input, 0).events
      ensures Joins() == ApplyAll(old(Joins()), done)
      ensures !interrupted ==> done == Frames(input, 0).events
      ensures ending == PeerClosed <==> !interrupted && Frames(input, 0).ending == EndOfInput
      ensures calls == old(calls) + session
      ensures Signals(session) == EventSignals(done, syncAllJoinsCallback.Some?)
      ensures AllComplete(session, callbacks) && RaisedOnlyLast(session)
      ensures HonestFrom(calls, |old(calls)|, faults, sync)
      ensures interrupted <==> session != [] && session[|session| - 1].raised
    {
      done, session, interrupted := [], [], false;
      ending := Aborted;
      var i := 0;
      var connected := true;
      while connected
        invariant i <= |input|
        invariant Served(old(Joins()), old(calls), done, session, interrupted, faults, sync)
        invariant Frames(input, 0) == Decoding(done + Frames(input, i).events, Frames(input, i).ending)
        invariant interrupted ==> !connected
        invariant !connected && !interrupted ==> Frames(input, i).events == []
        invariant !connected && !interrupted ==> (ending == PeerClosed <==> Frames(input, i).ending == EndOfInput)
        invariant connected || interrupted ==> ending == Aborted
        decreases |input| - i + (if connected then 1 else 0)
      {
        FramesStep(input, i, done);
        match NextStep(input, i) {
          case Closed =>
            connected := false;
            ending := PeerClosed;
          case Fault =>
            connected := false;
          case Skipped(next) =>
            i := next;
          case Decoded(e, next) =>
            DecodedEventSendable(input, i);
            var fine;
            fine, session := Take(e, faults, sync, old(Joins()), old(calls), done, session);
            done := done + [e];
            i := next;
            if !fine {
              connected := false;
              interrupted := true;
            }
        }
      }
    }

    /** handle_connection(reader, writer) for a peer that sends `input` and
        then closes. The connection's writer becomes the current writer and
        availability is announced (`opening`) before the update request 0xFD
        is written; frames are then served (`session`); on every exit the
        writer is closed, availability drops and is announced (`closing`). */
    method HandleConnection(conn: Connection, input: seq<byte>, faults: Faults, sync: SyncFaults)
      returns (ending: SessionEnd, ghost done: seq<Event>, ghost interrupted: bool,
               ghost opening: Call, ghost session: seq<Call>, ghost closing: Call)
      requires Valid()
      modifies this`digital, this`analog, this`serial, this`writer, this`available
      modifies this`outbox, this`calls, this`closedWriters
      ensures Valid()
      ensures writer == Some(conn) && !available
      ensures closedWriters == old(closedWriters) + {conn}
      // the store: exactly the effect of the frames taken, in order
      ensures done <= Frames(input, 0).events
      ensures Joins() == ApplyAll(old(Joins()), done)
      ensures !interrupted ==> done == Frames(input, 0).events
      ensures ending == PeerClosed <==> !interrupted && Frames(input, 0).ending == EndOfInput
      // the callbacks: available True, one signal per frame, available False
      ensures calls == old(calls) + [opening] + session + [closing]
      ensures SignalOf(opening) == Notified("available", "True")
      ensures SignalOf(closing) == Notified("available", "False")
      ensures Signals(session) == EventSignals(done, syncAllJoinsCallback.Some?)
      ensures AllComplete([opening] + session + [closing], callbacks)
      ensures RaisedOnlyLast([opening] + session)
      ensures interrupted <==> ([opening] + session)[|session|].raised
      ensures opening.raised ==> session == [] && done == []
      // the writer: the update request, only after a clean announcement
      ensures outbox == old(outbox) + (if opening.raised then [] else [Write(conn, [UpdateRequest])])
      // every round ended as the faults dictate; without faults the session runs to the end
      ensures HonestFrom(calls, |old(calls)|, faults, sync)
      ensures faults == {} && sync == {} ==>
        && !interrupted && done == Frames(input, 0).events
        && outbox == old(outbox) + [Write(conn, [UpdateRequest])]
    {
      ending, done, interrupted, opening, session := ServeConnection(conn, input, faults, sync);
      closing := Close(conn, faults);
      Bracketed(opening, session, closing, callbacks);
      ConnectionHonest(old(calls), opening, session, closing, faults, sync);
    }

    /** The try block of handle_connection: the writer is installed and
        availability announced; only when no callback raised is the update
        request written and are the frames served. */
    method ServeConnection(conn: Connection, input: seq<byte>, faults: Faults, sync: SyncFaults)
      returns (ending: SessionEnd, ghost done: seq<Event>, ghost interrupted: bool,
               ghost opening: Call, ghost session: seq<Call>)
      requires Valid()
      modifies this`digital, this`analog, this`serial, this`writer, this`available
      modifies this`outbox, this`calls
      ensures Valid()
      ensures writer == Some(conn) && available
      ensures done <= Frames(input, 0).events
      ensures Joins() == ApplyAll(old(Joins()), done)
      ensures !interrupted ==> done == Frames(input, 0).events
      ensures ending == PeerClosed <==> !interrupted && Frames(input, 0).ending == EndOfInput
      ensures calls == old(calls) + [opening] + session
      ensures SignalOf(opening) == Notified("available", "True")
      ensures Signals(session) == EventSignals(done, syncAllJoinsCallback.Some?)
      ensures Complete(opening, callbacks) && AllComplete(session, callbacks) && RaisedOnlyLast(session)
      ensures interrupted <==> if session == [] then opening.raised else session[|session| - 1].raised
      ensures opening.raised ==> session == [] && done == []
      ensures outbox == old(outbox) + (if opening.raised then [] else [Write(conn, [UpdateRequest])])
      ensures FanoutHonest(opening, |old(calls)|, faults)
      ensures HonestFrom(calls, |old(calls) + [opening]|, faults, sync)
    {
      var ok;
      ok, opening := Open(conn, faults);
      if ok {
        ending, done, interrupted, session := Serve(input, faults, sync);
      } else {
        ending, done, interrupted, session := Aborted, [], true, [];
      }
    }

    /** The start of handle_connection: the connection's writer becomes the
        current one, availability is set and announced, and the update
        request goes out only when no callback raised. */
    method Open(conn: Connection, faults: Faults) returns (ok: bool, ghost opening: Call)
      modifies this`writer, this`available, this`outbox, this`calls
      ensures writer == Some(conn) && available
      ensures calls == old(calls) + [opening]
      ensures SignalOf(opening) == Notified("available", "True") && Complete(opening, callbacks)
      ensures FanoutHonest(opening, |old(calls)|, faults)
      ensures ok <==> !opening.raised
      ensures outbox == old(outbox) + (if ok then [Write(conn, [UpdateRequest])] else [])
    {
      writer := Some(conn);
      available := true;
      ok, opening := Broadcast("available", "True", faults);
      if ok {
        outbox := outbox + [Write(conn, [UpdateRequest])];
      }
    }

    /** The finally block of handle_connection: the writer is closed and the
        loss of availability announced. */
    method Close(conn: Connection, faults: Faults) returns (ghost closing: Call)
      modifies this`available, this`calls, this`closedWriters
      ensures !available
      ensures closedWriters == old(closedWriters) + {conn}
      ensures calls == old(calls) + [closing]
      ensures SignalOf(closing) == Notified("available", "False") && Complete(closing, callbacks)
      ensures FanoutHonest(closing, |old(calls)|, faults)
    {
      closedWriters := closedWriters + {conn};
      available := false;
      var ok;
      ok, closing := Broadcast("available", "False", faults);
    }
  }

  /** The rounds of a whole connection: the opening announcement, the
      session, and the closing announcement. */
  lemma Bracketed(opening: Call, session: seq<Call>, closing: Call, cbs: set<Callback>)
    requires Complete(opening, cbs) && AllComplete(session, cbs) && Complete(closing, cbs)
    requires RaisedOnlyLast(session)
    requires opening.raised ==> session == []
    ensures AllComplete([opening] + session + [closing], cbs)
    ensures RaisedOnlyLast([opening] + session)
    ensures ([opening] + session)[|session|].raised <==>
              (if session == [] then opening.raised else session[|session| - 1].raised)
  {
    LogConcat([opening], session, cbs);
    LogConcat([opening] + session, [closing], cbs);
  }

  /** One more frame: the store takes its effect and its signals follow the
      session's. */
  lemma SessionStep(st: Store, done: seq<Event>, e: Event, session: seq<Call>, added: seq<Call>, registered: bool)
    requires Signals(session) == EventSignals(done, registered)
    requires Signals(added) == EventSignals([e], registered)
    ensures ApplyAll(st, done + [e]) == Apply(ApplyAll(st, done), e)
    ensures Signals(session + added) == EventSignals(done + [e], registered)
  {
    assert (done + [e])[..|done|] == done;
    assert [e][..0] == [];
    SignalsConcat(session, added);
  }
}
